=== FILE: README.md ===
# pixelstrom in Dafny

pixelstrom is a shared pixel canvas. The server holds a framebuffer. Browsers watch it over a
websocket, and painting clients connect over a line-based ASCII protocol. This project models
the sequential logic of that system and proves properties of it:

- **Framebuffer** (`framebuffer.dfy`, `common.dfy`). A flat row of `width * height` u32
  pixels. The model covers creation, filling with one colour, the rainbow packing
  `r | g << 8 | b << 16`, and serialisation into the `ScreenSync` snapshot: four
  little-endian bytes per pixel.
- **Browser snapshot rendering** (`web_client.dfy`). The page's `onmessage` handler drops a
  snapshot with a zero dimension. Otherwise it copies R, G and B into a fresh image and forces
  every alpha byte to 255. Combined with the rainbow packing, this shows that the snapshot's
  alpha is always 0, yet every pixel shows up opaque.
- **Demo paint batches** (`paint_batch.dfy`). The loop in `random_client_paints_loop` paints a
  300×300 square of one colour as 8-byte big-endian records `x, y, color`, x-major. A decoder
  proves the byte layout is a faithful encoding of the square.
- **ASCII protocol**.
  - `ascii_parser.dfy`, `line_protocol.dfy` and `ascii_server.dfy` cover the first server
    revision: `HELP` and `SIZE` tags, and acceptance only when the whole line is consumed.
  - `client_connection.dfy` covers the later per-connection state machine: login,
    `SetPixel` accumulation into `painted`, `DONE`, the close-after-response rule, and the
    `run` loop over incoming lines.
  - `user_manager.dfy` holds the credential map, where a first login registers the user.
- **Slot scheduler** (`user_scheduler.dfy`). A queue of users taking turns. The model proves
  the round-robin order when every send succeeds. For a user whose channel is gone, the code
  as written hangs (see "## Findings"); the model states the intended removal and proves
  where the two differ.
- **Statistics** (`statistics.dfy`). The map of registered users and the update message that
  lists each of them once.
- **Python sample client** (`python_client.dfy`, `text.dfy`).
  - Its row-major pixel list.
  - Parsing the server's `SIZE` reply. Python's `strip`, `split` and `int` are modelled
    precisely enough to prove the client reads back what the server writes.
  - The random placement of the image.
  - The drawing cursor that carries over from one slot to the next.

Randomness, clocks, hashing, file writes and channel sends become parameters of the functions
that use them. Each file is modelled against its own types. The files come from different
revisions of the program: the first ASCII server answers `SIZE` with u32 dimensions, the later
connection with u16 ones.

The browser renders full snapshots only. It has no delta handling, no reconnect logic and no
check that a snapshot holds exactly `width * height * 4` bytes: it copies whatever bytes the
snapshot carries (`ImageByte` fixes what happens with too few or too many). The demo paint
record is `x, y` followed by a big-endian u32 colour.

## Model

| member | source | states |
|---|---|---|
| Bytes.LeBytes32 | src/framebuffer.rs:58 | `to_le_bytes` gives four bytes whose little-endian value is the pixel; byte k is `(v >> 8k) & 0xFF` |
| Bytes.LeRoundTrip | src/framebuffer.rs:58 | any four bytes read little-endian give a u32 whose `to_le_bytes` are those bytes: the encoding is a bijection |
| Bytes.BeBytes16 | src/main.rs:103-104 | `put_u16` writes two bytes, high byte first, whose big-endian value is the argument |
| Bytes.BeBytes32 | src/main.rs:105 | `put_u32` writes four bytes, most significant first, whose big-endian value is the argument |
| Bytes.BeRoundTrip16 | src/main.rs:103-104 | any two bytes are the `put_u16` encoding of their big-endian value, which fits in u16 |
| Bytes.BeRoundTrip32 | src/main.rs:105 | any four bytes are the `put_u32` encoding of their big-endian value, which fits in u32 |
| FrameBuffer.New | src/framebuffer.rs:13-22 | a new buffer has the requested dimensions, exactly width×height pixels, all 0 |
| FrameBuffer.NumPixels | src/framebuffer.rs:24-26 | the pixel count is width×height when that fits in u32; otherwise the u32 product wraps and is smaller than the true count |
| FrameBuffer.FillWithColor | src/framebuffer.rs:28-30 | filling keeps the dimensions and the length and makes every pixel the given colour |
| FrameBuffer.FillWithColorIdempotent | src/framebuffer.rs:28-30 | filling twice with a colour equals filling once, and a buffer with one entry per pixel keeps that invariant |
| FrameBuffer.RainbowPixel | src/framebuffer.rs:45 | the packed rainbow pixel has a zero top byte, and its little-endian bytes are exactly R, G, B, 0 |
| FrameBuffer.RainbowPixels | src/framebuffer.rs:42-48 | the mapped range has one entry per index, and entry i is the packing of the gradient colour at i |
| FrameBuffer.FillWithRainbow | src/framebuffer.rs:35-49 | the rainbow fill keeps the dimensions and has `num_pixels` entries, each below 2^24; it keeps one entry per pixel when width×height fits in u32 |
| FrameBuffer.RainbowShrinksOnOverflow | src/framebuffer.rs:42 | when width×height overflows u32, the rainbow fill has fewer entries than the grid has pixels |
| FrameBuffer.LeFlatten | src/framebuffer.rs:55-59 | the flattened pixel bytes are four per pixel |
| FrameBuffer.ToScreenSync | src/framebuffer.rs:52-66 | the snapshot copies width and height and carries 4 bytes per pixel, width×height×4 for a well-sized buffer |
| FrameBuffer.LeFlattenSlice | src/framebuffer.rs:55-59 | bytes 4i .. 4i+4 of the flattened pixels are the little-endian bytes of pixel i |
| FrameBuffer.SnapshotBytes | src/framebuffer.rs:52-66 | snapshot byte 4i+k is `(pixels[i] >> 8k) & 0xFF`, and the four bytes of pixel i read back as pixels[i] |
| FrameBuffer.SnapshotRoundTrip | src/framebuffer.rs:55-59 | reading a snapshot's bytes back four at a time recovers every pixel, in order |
| FrameBuffer.RainbowSnapshotChannels | src/framebuffer.rs:42-59 | in the snapshot of a rainbow-filled buffer, pixel i's bytes are the gradient's R, G, B at i followed by alpha 0 |
| WebClient.Load | static/client.js:72-74 | reading a pixel byte past the end of the snapshot bytes yields 0 (`undefined` stored in a clamped array) |
| WebClient.Store | static/client.js:72-75 | writing past the end of the image data changes nothing; a write in range changes only that byte |
| WebClient.StoreGroup | static/client.js:72-75 | one loop iteration sets the four bytes of its pixel group to their final values and leaves every other byte alone |
| WebClient.CopyPixels | static/client.js:58-76 | the image data has exactly width×height×4 bytes; each byte in a group the loop reaches is R, G, B copied or alpha 255, the rest stay 0; the loop runs ⌈len/4⌉ times |
| WebClient.OnMessage | static/client.js:25-91 | a non-Blob message, a decode failure, or a zero width or height leaves the canvas unchanged; otherwise the canvas takes the snapshot's size and the copied image |
| WebClient.ExactSnapshotRendering | static/client.js:71-76 | with width×height×4 snapshot bytes, the loop runs once per pixel, copies R, G, B unchanged and sets every alpha to 255 whatever it was |
| WebClient.RainbowRendersOpaque | static/client.js:71-75 | a rainbow snapshot's alpha byte is 0 for every pixel, yet the page shows the gradient's R, G, B with alpha 255 |
| PaintBatch.EncodeRecord | src/main.rs:103-105 | a record is 8 bytes: x as big-endian u16, then y as big-endian u16, then the colour as big-endian u32 |
| PaintBatch.EncodeRecords | src/main.rs:100-107 | a batch is 8 bytes per record |
| PaintBatch.BatchRoundTrip | src/main.rs:100-107 | decoding the batch bytes gives back exactly the records written, in order |
| PaintBatch.EncodeRecordsAppend | src/main.rs:103-105 | writing one more record appends exactly its 8 bytes |
| PaintBatch.EncodeRecordsSlice | src/main.rs:100-107 | record k occupies bytes 8k .. 8k+8 of the batch |
| PaintBatch.BatchRecords | src/main.rs:97-105 | a batch has SIZE×SIZE records; every x is in [start_x, start_x+SIZE), every y in [start_y, start_y+SIZE), and all carry the one colour |
| PaintBatch.BatchOrder | src/main.rs:101-102 | records come x-major: x never decreases, and within one x, y strictly increases |
| PaintBatch.BatchCoversSquare | src/main.rs:101-102 | every pixel of the square appears, as record (x−start_x)·SIZE + (y−start_y) |
| PaintBatch.PaintStep | src/main.rs:103-105 | one inner-loop pass extends the bytes written so far by the next record of the batch |
| PaintBatch.EncodePainted | src/main.rs:100-107 | the nested loops produce exactly the encoding of the whole square: 8·SIZE² bytes that decode to its records |
| PaintBatch.ChooseStart | src/main.rs:95-96 | the start range is empty exactly when the dimension is at most SIZE; a chosen start satisfies start + SIZE ≤ dim − 1 |
| PaintBatch.BatchWithinScreen | src/main.rs:95-98 | a square whose start was chosen on the screen lies entirely on it, with no u16 overflow at start + SIZE |
| LineProtocol.ReportErrors | src/ascii_server/mod.rs:56-77 | a line is a request exactly when the parser consumed all of it; a parse with leftovers, or no parse at all, becomes an error report |
| AsciiParser.Tag | src/ascii_server/parser.rs:26-32 | `tag` succeeds exactly when the input starts with the tag, case-sensitively, and leaves the rest of the input |
| AsciiParser.ParseRequest | src/ascii_server/parser.rs:22-32 | parsing succeeds exactly for input starting with "HELP" or "SIZE", picks Help first, and leaves input[4..], which is 4 characters shorter |
| AsciiParser.ParseHelp | src/ascii_server/parser.rs:26-28 | `parse_help` succeeds exactly on input starting with "HELP", giving Help and the input after the tag |
| AsciiParser.ParseSize | src/ascii_server/parser.rs:30-32 | `parse_size` succeeds exactly on input starting with "SIZE", giving Size and the input after the tag |
| AsciiParser.ParseRejects | src/ascii_server/parser.rs:22-32 | examples, implied by `ParseRequest`: lower-case, mixed-case, truncated and empty inputs are parse errors |
| AsciiParser.RenderResponse | src/ascii_server/parser.rs:43-46 | Help is sent as HELP_TEXT; Size is exactly `SIZE <width> <height>` in decimal, which splits back into those three words |
| AsciiServer.ParseRequestReportErrors | src/ascii_server/mod.rs:52-79 | only the exact lines "HELP" and "SIZE" are requests; longer lines starting with a tag are reported with their remainder |
| AsciiServer.TrailingCharactersRejected | src/ascii_server/mod.rs:56-69 | examples, implied by `ParseRequestReportErrors`: "HELPX" and "SIZE 1" are reported as having remaining bytes, not served |
| AsciiServer.ProcessRequest | src/ascii_server/mod.rs:81-89 | Help answers Help and Size answers the fixed 42×42 |
| AsciiServer.ReplyTo | src/ascii_server/mod.rs:38-46 | a line is served exactly when it is "HELP" or "SIZE", with Help or the fixed 42×42; every other line is reported with its parse outcome |
| AsciiServer.HandleConnection | src/ascii_server/mod.rs:37-47 | a connection sends at most one reply per line read |
| AsciiServer.EveryLineAnswered | src/ascii_server/mod.rs:37-47 | without read errors every line gets exactly one reply, a response for a whole request or an error line otherwise, and the loop ends only when the peer closes |
| AsciiServer.ReadErrorStops | src/ascii_server/mod.rs:37-38 | a read error ends the connection: lines after it are never answered |
| ClientConnection.NewConnection | src/ascii_server/client_connection.rs:29-54 | a connection starts with nothing painted and nobody logged in |
| ClientConnection.ProcessRequest | src/ascii_server/client_connection.rs:121-178 | Size answers the configured size. Login sets the user on success and clears it on failure. SetPixel appends one update when logged in and answers LoginNeeded otherwise. Done answers \|painted\| without clearing it, and is an error with no user or an unsent update. Only Login touches user state |
| ClientConnection.SendResponse | src/ascii_server/client_connection.rs:181-207 | the connection closes after a response exactly when it is LoginNeeded or LoginFailed; each response's exact line text, and SIZE, PX and DONE lines split back into their keyword and fields |
| ClientConnection.SizeLine | src/ascii_server/client_connection.rs:189 | the line is `SIZE <width> <height>` in decimal and splits back into those three words |
| ClientConnection.PixelLine | src/ascii_server/client_connection.rs:200 | the line is `PX <x> <y> <rgba:06x>` and splits back into "PX", x and y in decimal, and the colour as at least six lowercase hex digits |
| ClientConnection.DoneLine | src/ascii_server/client_connection.rs:202 | the line is `DONE <count>` in decimal and splits back into those two words |
| ClientConnection.RunConnection | src/ascii_server/client_connection.rs:48-90 | a run sends at most one line per frame and never changes the connection's dimensions |
| ClientConnection.EmptyLineSkipped | src/ascii_server/client_connection.rs:67-69 | an empty line is skipped: the run is as if it was never read |
| ClientConnection.ClosingResponseEndsRun | src/ascii_server/client_connection.rs:77-84 | after a LoginNeeded or LoginFailed response the run ends having sent exactly that response's line, with the connection state after the request; the result is the same whatever frames follow |
| ClientConnection.PaintedOnlyGrows | src/ascii_server/client_connection.rs:121-178 | over a run `painted` only grows: earlier updates are kept as a prefix, and each frame adds at most one |
| ClientConnection.LoggedOutPaintsNothing | src/ascii_server/client_connection.rs:121-178 | until a Login line is read, a logged-out connection stays logged out and `painted` is unchanged, whatever other lines, too-long lines or read errors arrive |
| ClientConnection.DoneCountsAllPainted | src/ascii_server/client_connection.rs:161-176 | DONE reports every pixel painted since the connection opened, and a second DONE reports the same count |
| UserManager.CreateUser | src/ascii_server/user_manager.rs:92-108 | the user gets the new hash and no other entry changes; a hashing failure changes nothing; a failed save is an error, but the entry stays |
| UserManager.CheckCredentials | src/ascii_server/user_manager.rs:73-90 | a known user is checked against the stored hash with the map unchanged, and an unparsable hash is an error; an unknown user is created and accepted when creation succeeds |
| UserManager.ReturningUserAccepted | src/ascii_server/user_manager.rs:69-90 | after a first login registers a name, a later login with the same password succeeds, if `verify` accepts a password against its own hash |
| UserManager.WrongPasswordRefused | src/ascii_server/user_manager.rs:74-80 | a registered name cannot be taken over: a wrong password is refused and the map is unchanged |
| UserScheduler.Register | src/ascii_server/user_scheduler.rs:42-48 | the user is appended at the back and the rest of the queue is unchanged |
| UserScheduler.Unregister | src/ascii_server/user_scheduler.rs:51-56 | every entry with the name is removed and no other entry is; a queue without the name is unchanged |
| UserScheduler.UnregisterAppend | src/ascii_server/user_scheduler.rs:51-56 | removal works entry by entry, keeping the others' order: it distributes over concatenation |
| UserScheduler.UnregisterIdempotent | src/ascii_server/user_scheduler.rs:51-56 | unregistering twice equals unregistering once |
| UserScheduler.RegisterUnregister | src/ascii_server/user_scheduler.rs:42-56 | unregistering a just-registered new name gives the queue back |
| UserScheduler.EndSlot | src/ascii_server/user_scheduler.rs:64-72 | the front user is told SlotEnd and goes to the back if that was delivered, otherwise it is dropped; an empty queue sends nothing |
| UserScheduler.Round | src/ascii_server/user_scheduler.rs:61-102 | the new front user gets SlotStart and is announced; if SlotStart fails, it is removed from the queue; a failed announcement stops the loop; an empty queue sends nothing; the queue never grows |
| UserScheduler.DeadUserRemoved | src/ascii_server/user_scheduler.rs:74-79 | on queue [a, b], when b's SlotStart fails, b is still announced and the queue becomes [a] |
| UserScheduler.UnregisterShrinks | src/ascii_server/user_scheduler.rs:51-56 | unregistering a queued user makes the queue shorter |
| UserScheduler.AcquireWrite | src/ascii_server/user_scheduler.rs:53-54 | the write lock is granted exactly when no writer holds it |
| UserScheduler.UnregisterLocked | src/ascii_server/user_scheduler.rs:51-56 | `unregister_user` waits forever when the write lock is already held, and otherwise removes the user |
| UserScheduler.RoundAsWritten | src/ascii_server/user_scheduler.rs:61-79 | the loop as written hangs exactly when the new front user's SlotStart fails; otherwise it does what `Round` does |
| UserScheduler.AsWrittenHangsWhereUserDropped | src/ascii_server/user_scheduler.rs:61-79 | the rounds where the written loop hangs are exactly those where the intended round drops a user |
| UserScheduler.SchedulerHangsOnDeadUser | src/ascii_server/user_scheduler.rs:62-78 | on queue [a, b] with b's SlotStart failing, the written round never finishes, while the intended one leaves [a] |
| UserScheduler.RotationWhenAllDelivered | src/ascii_server/user_scheduler.rs:64-79 | with every send succeeding, a round rotates the queue by one and announces the second user |
| UserScheduler.RunRounds | src/ascii_server/user_scheduler.rs:61-102 | with all sends succeeding, rounds keep the queue length and announce one user per round |
| UserScheduler.RoundRobinQueue | src/ascii_server/user_scheduler.rs:61-102 | n ≤ \|q\| successful rounds rotate the queue by n |
| UserScheduler.RoundRobin | src/ascii_server/user_scheduler.rs:61-102 | round k announces the user after position k in cyclic order |
| UserScheduler.FullCycle | src/ascii_server/user_scheduler.rs:61-102 | \|q\| successful rounds bring the queue back to its starting order |
| UserScheduler.EveryUserGetsSlot | src/ascii_server/user_scheduler.rs:61-102 | every queued user is announced within one full cycle |
| Statistics.BuildUpdate | src/statistics.rs:43-51 | the update lists every registered user exactly once, in any order, each with 1000 pixels/s and 42 ms |
| Statistics.SendUpdate | src/statistics.rs:42-67 | the update lists every registered user exactly once, and sending fails exactly when the channel is closed |
| Statistics.Registered | src/statistics.rs:26-29 | registering adds the name and keeps the existing entries |
| Statistics.Unregistered | src/statistics.rs:36 | unregistering removes the name and nothing else |
| Statistics.RegisterRoundTrip | src/statistics.rs:26-36 | registering twice equals registering once; unregistering a new registration restores the map |
| Statistics.RegisterUser | src/statistics.rs:26-33 | the map gains the name, and the one update sent lists the name and every other user exactly once |
| Statistics.UnregisterUser | src/statistics.rs:35-40 | the map loses the name, and the one update sent lists every remaining user exactly once and not the name |
| Text.Decimal | src/ascii_server/client_connection.rs:189 | `{}` on an integer gives decimal digits without leading zeros whose value is the integer |
| Text.Hex | src/ascii_server/client_connection.rs:200 | `{:06x}` gives lowercase hex digits of at least the width whose value is the integer, without extra leading zeros |
| Text.Strip | python-client/client.py:48 | `strip()` gives a slice of the input with all whitespace around it removed, and no whitespace at its ends |
| Text.Split | python-client/client.py:51 | `str.split()` yields non-empty words without whitespace that together hold exactly the input's non-space characters in order, one word per place where a word begins |
| Text.RunAt | python-client/client.py:51 | the run starting at a position is a slice of the input without whitespace that ends at the end of the input or just before whitespace: it cannot be extended |
| Text.SplitRuns | python-client/client.py:51 | for every place where a word begins, the maximal run starting there is the word at index (number of words) − (word beginnings from that place on): the words of `str.split()` are exactly the maximal runs of non-space characters, in order |
| Text.SplitJoinSpaced | python-client/client.py:51 | splitting words joined by single spaces gives the words back |
| Text.StripLine | python-client/client.py:48 | stripping a received line plus its trailing newline gives the line |
| Text.PyInt | python-client/client.py:52 | `int` succeeds exactly on an optional sign followed by digits with single underscores between them, so any other token (letters, an empty token, a lone sign) raises ValueError; plain digits give their decimal value |
| Text.PyIntDecimal | python-client/client.py:52 | Python's `int` reads back what Rust's `{}` writes |
| PythonClient.ColorHex | python-client/client.py:16 | a colour string is 6 lowercase hex digits, two per channel, holding R, G and B |
| PythonClient.ColorRoundTrip | python-client/client.py:16 | reading a colour string back gives the original channels |
| PythonClient.Row | python-client/client.py:16-17 | one row holds entries x = 0 .. width−1 of line y, each with its pixel's colour |
| PythonClient.LoadImage | python-client/client.py:7-20 | every entry lies inside the image and carries a 6-character colour |
| PythonClient.LoadImageLength | python-client/client.py:16-17 | the list has width×height entries |
| PythonClient.LoadImagePrefix | python-client/client.py:16-17 | the list for the first y rows is a prefix of the full list |
| PythonClient.PixelAfterRows | python-client/client.py:16-17 | pixel (x, y) follows the y full rows above it |
| PythonClient.LoadImageRowMajor | python-client/client.py:16-17 | pixel (x, y) sits at index width·y + x with its own colour: y outer, x inner |
| PythonClient.GetScreenSize | python-client/client.py:43-54 | the reply is accepted exactly when the stripped text starts with "SIZE " and splits into three words whose last two are integers, which are returned |
| PythonClient.ScreenSizeRoundTrip | python-client/client.py:48-52 | the client reads back exactly the width and height in the server's SIZE line |
| PythonClient.ScreenSizeRejectsError | python-client/client.py:50-54 | an ERROR reply raises ValueError |
| PythonClient.ScreenSizeRejectsMissingHeight | python-client/client.py:50-54 | a SIZE reply with one number raises ValueError |
| PythonClient.StartRange | python-client/client.py:61-62 | `max(screen − image, 0)` leaves exactly room for the image when it fits |
| PythonClient.RandInt | python-client/client.py:61-62 | `randint(a, b)` lies in [a, b] |
| PythonClient.CalculateNewPosition | python-client/client.py:57-64 | each start lies in [0, max(screen − image, 0)], and a fitting image ends inside the screen |
| PythonClient.Reposition | python-client/client.py:104-109 | the cursor is reset to a full pass, and the new start keeps a fitting image on screen |
| PythonClient.Advance | python-client/client.py:96-109 | one step keeps `pixel_index + remaining == len(pixels)` with a pass under way, and keeps the start valid |
| PythonClient.PyIndex | python-client/client.py:87 | Python indexing succeeds exactly for −len ≤ i < len, counting negative indices from the end |
| PythonClient.ValidPxAppend | python-client/client.py:91-93 | sending one more on-screen pixel with an image colour keeps every sent line valid |
| PythonClient.ShiftedPixel | python-client/client.py:87-93 | a pixel is sent exactly when its shifted position is on screen, as a PX line at that position with the pixel's colour |
| PythonClient.EnterSlot | python-client/client.py:74-78 | a cursor with a pass under way is kept; an idle one keeps its index, gets a full pass and a new start that keeps a fitting image on screen |
| PythonClient.DrawStep | python-client/client.py:87-109 | one iteration raises IndexError exactly when the index is outside the list; otherwise it sends the pixel's shifted PX line when on screen and nothing when off screen, and moves the cursor on by one, or at the end of a pass resets it to index 0 with a new start |
| PythonClient.DrawSteps | python-client/client.py:85-109 | k iterations of the loop send at most k lines |
| PythonClient.DrawStepsStopAtError | python-client/client.py:87 | once an iteration raises IndexError, more iterations change nothing |
| PythonClient.DrawStepsExtend | python-client/client.py:87-109 | one more iteration inside the list appends that pixel's line and advances the cursor |
| PythonClient.DrawStepsFail | python-client/client.py:87 | one more iteration outside the list raises IndexError and sends nothing |
| PythonClient.DrawStepsInside | python-client/client.py:87-98 | an iteration before the last pixel of a pass sends that pixel's line at the pass's start and moves the cursor on by one |
| PythonClient.DrawStepsLast | python-client/client.py:87-109 | the iteration at the last pixel sends its line, then resets the index to 0 with a full pass and a new start |
| PythonClient.DrawStepsValid | python-client/client.py:87-93 | every line of any run of iterations is an on-screen PX line with an image colour |
| PythonClient.DrawStepsTracked | python-client/client.py:85-109 | from a cursor inside a pass, no iteration fails and the cursor stays inside a pass; with a fitting image and start, every iteration sends exactly one line |
| PythonClient.DrawStepsEmpty | python-client/client.py:87 | with an empty image, the first iteration raises IndexError |
| PythonClient.DrawWithinPass | python-client/client.py:85-98 | k iterations short of the end of a pass send, in order, the lines of pixels pixel_index .. pixel_index+k−1 at the pass's start, and advance the index by k |
| PythonClient.DrawCompletesPass | python-client/client.py:85-109 | finishing a pass sends the lines of all its remaining pixels in order, then resets the cursor to a full pass at index 0 with a new start |
| PythonClient.DrawPixels | python-client/client.py:67-112 | the lines sent are exactly those of min(pixel_count, budget) loop iterations from the entry cursor, followed by DONE unless an iteration raised IndexError, and the cursor returned is the one after them. Every PX line is on screen with an image colour; at most pixel_count are sent. The cursor invariant is kept. With a fitting image, every processed pixel is sent. An empty image raises IndexError |

## Left out

- Sockets, TCP framing and `LinesCodec` are left out. The incoming lines are the input of the
  connection functions (`Frame`). Python's `recv(1024)` is assumed to return one whole reply.
- Failures of `framed.send` on the TCP side are not modelled. Only the websocket channel sends
  have a success flag.
- The Debug-formatted text of the two parse error lines is left out. `Sent.ParseErrorReport`
  and `Reply.ReportError` keep the outcome they describe.
- Protocol Buffers encoding in prost and protobuf.js is left out. A decoded snapshot is the
  record `ScreenSync(width, height, pixels)`, and a decode failure is an `Err`.
- The float gradient and random endpoints of `fill_with_rainbow` are replaced by `shade`, an
  uninterpreted map from pixel index to colour. The random colour of `fill_with_random_color`
  is a parameter.
- FrameBuffer.NumPixels: models the release-build wrap-around of the u32 product. A debug
  build panics instead.
- FrameBuffer.New: assumes `Vec::with_capacity` allocates exactly the requested capacity,
  which `resize` then fills.
- `putImageData` and the DOM calls of client.js are left out. The canvas is its size and its
  bytes.
- The framebuffer's `get` and `set_multi`, used by the later connection, are not part of this
  model. `get` is the parameter `pixelAt`, and DONE only records whether the websocket channel
  accepted the update.
- The request parser of the later revision (LOGIN, PX, DONE) is not part of this model.
  `RunConnection` takes the parser as a parameter.
- ClientConnection.TOO_LONG_MESSAGE: uses the first revision's line limit,
  `AsciiServer.MAX_INPUT_LINE_LENGTH` (1024). The later revision's limit constant is not part
  of this model.
- The `HELP_TEXT` of the later revision is not part of this model. The connection reuses the
  text from `parser.rs`.
- Argon2 hashing and hash parsing are left out. They are the uninterpreted `Crypto`
  functions.
- Writing `users.json` is left out. It is the flag `saved`.
- UserScheduler.Round: states the intended removal of a user whose SlotStart fails. The code
  as written hangs there instead (see "## Findings", modelled by `RoundAsWritten`).
- The slot interval timer and tokio scheduling are left out. `RunRounds` counts rounds.
- `HashMap` iteration order in `send_update` is unspecified. `BuildUpdate` picks the next
  user nondeterministically, so its contract holds for every order.
- `random.randint`, `rand::thread_rng` and `gen_range` draws are left out. They are
  parameters (`pick`, `rand`).
- The `gen_range` panic on an empty range is `None`.
- `time.perf_counter` in `draw_pixels` is replaced by an iteration budget.
- The float duration arithmetic in the Python client's main loop is left out.
- Text.PyInt: accepts ASCII digits with optional sign and single underscores. Python also
  accepts other Unicode decimal digits, which is not modelled.
- PIL image decoding in `load_image` is left out. The image is its size and a `getpixel`
  function. The `ValueError` raised when loading fails is not modelled.
- `connect_to_server` and the Python `main` loop (its START handling) are left out.

## Findings

| source | as written | input that shows it | evidently intended | confidence | as-written member | corrected member |
|---|---|---|---|---|---|---|
| src/ascii_server/user_scheduler.rs:62-78 | `run` holds the queue's write guard for the whole round, and on a failed SlotStart calls `unregister_user`, which asks for the same `tokio` `RwLock` write lock again; the lock is not re-entrant, so the loop waits forever while holding it, and every later register and unregister waits too | queue [a, b]; a's SlotEnd is delivered, b's connection is gone so b's SlotStart fails | remove b from the queue through the guard the loop already holds, announce b, and carry on with queue [a] | high, not executed | UserScheduler.RoundAsWritten, UserScheduler.SchedulerHangsOnDeadUser | UserScheduler.Round, UserScheduler.DeadUserRemoved |

=== FILE: ascii_parser.dfy ===
/** The request parser of the first ASCII server revision and the text of its responses. */
module AsciiParser {
  import opened Common
  import opened LineProtocol
  import Text

  const HELP_TEXT: string := "Help text here :)"

  datatype Request = Help | Size

  datatype Response = Help | Size(width: U32, height: U32)

  /** nom's `tag(t)` on complete input: consumes `t` when the input starts with it,
      case-sensitively, and fails otherwise. */
  function Tag<R>(t: string, request: R, input: string): (p: Parse<R>)
    ensures p.Parsed? <==> t <= input
    ensures p.Parsed? ==> p.rest == input[|t|..] && p.request == request
  {
    if t <= input then Parsed(input[|t|..], request) else Unparsable
  }

  /** `parse_help`: the tag "HELP". */
  function ParseHelp(input: string): (p: Parse<Request>)
    ensures p.Parsed? <==> "HELP" <= input
    ensures p.Parsed? ==> p == Parsed(input[4..], Request.Help)
  {
    Tag("HELP", Request.Help, input)
  }

  /** `parse_size`: the tag "SIZE". */
  function ParseSize(input: string): (p: Parse<Request>)
    ensures p.Parsed? <==> "SIZE" <= input
    ensures p.Parsed? ==> p == Parsed(input[4..], Request.Size)
  {
    Tag("SIZE", Request.Size, input)
  }

  /** `alt((parse_help, parse_size))`: the first alternative that succeeds. */
  function ParseRequest(input: string): (p: Parse<Request>)
    ensures p.Parsed? <==> "HELP" <= input || "SIZE" <= input
    ensures p.Parsed? ==> p.request == (if "HELP" <= input then Request.Help else Request.Size)
    ensures p.Parsed? ==> |p.rest| == |input| - 4 && p.rest == input[4..]
  {
    match ParseHelp(input)
    case Parsed(_, _) => ParseHelp(input)
    case Unparsable => ParseSize(input)
  }

  /** Examples: the match is case-sensitive and needs the whole tag. */
  lemma ParseRejects()
    ensures ParseRequest("help") == Unparsable
    ensures ParseRequest("Size") == Unparsable
    ensures ParseRequest("HEL") == Unparsable
    ensures ParseRequest("") == Unparsable
  {
    assert "help"[0] != "HELP"[0] && "help"[0] != "SIZE"[0];
    assert "Size"[0] != "HELP"[0] && "Size"[1] != "SIZE"[1];
  }

  /** The line `send_response` writes for a response. */
  function RenderResponse(r: Response): (line: string)
    ensures r.Help? ==> line == HELP_TEXT
    ensures r.Size? ==> Text.Split(line) == ["SIZE", Text.Decimal(r.width), Text.Decimal(r.height)]
    ensures r.Size? ==> line == "SIZE " + Text.Decimal(r.width) + " " + Text.Decimal(r.height)
  {
    match r
    case Help => HELP_TEXT
    case Size(width, height) =>
      var words := ["SIZE", Text.Decimal(width), Text.Decimal(height)];
      Text.JoinSpaced3("SIZE", Text.Decimal(width), Text.Decimal(height));
      assert "SIZE" + " " == "SIZE ";
      Text.SplitJoinSpaced(words);
      Text.JoinSpaced(words)
  }
}

=== FILE: ascii_server.dfy ===
/** The first ASCII server revision: each connection answers every line it reads. */
module AsciiServer {
  import opened LineProtocol
  import P = AsciiParser

  const MAX_INPUT_LINE_LENGTH: nat := 1024

  /** What the line codec yields: a line, or a read error (an over-long line included). */
  datatype Frame = Line(text: string) | ReadError

  /** What the server sends back for one line: a response, or an error line describing the
      outcome. */
  datatype Reply = Respond(response: P.Response) | ReportError(outcome: LineOutcome<P.Request>)

  /** How the connection handler returns: the peer closed the stream, or reading failed. */
  datatype End = PeerClosed | ReadFailed

  datatype Session = Session(replies: seq<Reply>, end: End)

  /** `parse_request_report_errors`: only the exact lines "HELP" and "SIZE" are requests. */
  function ParseRequestReportErrors(line: string): (o: LineOutcome<P.Request>)
    ensures o.Accepted? <==> line == "HELP" || line == "SIZE"
    ensures o.Accepted? ==> o.request == (if line == "HELP" then P.Request.Help else P.Request.Size)
    ensures o.Trailing? <==> |line| > 4 && ("HELP" <= line || "SIZE" <= line)
    ensures o.Trailing? ==> o.remaining == line[4..]
  {
    var o := ReportErrors(line, P.ParseRequest(line));
    assert "HELP" <= line && |line| == 4 ==> line == "HELP";
    assert "SIZE" <= line && |line| == 4 ==> line == "SIZE";
    o
  }

  /** Examples: a line with extra characters after a tag is reported, not served. */
  lemma TrailingCharactersRejected()
    ensures ParseRequestReportErrors("HELPX") == Trailing("HELPX", P.Request.Help, "X")
    ensures ParseRequestReportErrors("SIZE 1") == Trailing("SIZE 1", P.Request.Size, " 1")
  {
    assert "SIZE 1"[0] != "HELP"[0];
    assert "SIZE" <= "SIZE 1" && "SIZE 1"[4..] == " 1";
  }

  /** `process_request`: a Size request gets the fixed answer 42×42, not the real screen. */
  function ProcessRequest(r: P.Request): (resp: P.Response)
    ensures r.Help? <==> resp.Help?
    ensures r.Size? ==> resp == P.Response.Size(42, 42)
  {
    match r
    case Help => P.Response.Help
    case Size => P.Response.Size(42, 42)
  }

  /** The reply to one line: exact HELP and SIZE lines are served, every other line is
      reported with its parse outcome. */
  function ReplyTo(line: string): (r: Reply)
    ensures r.Respond? <==> line == "HELP" || line == "SIZE"
    ensures line == "HELP" ==> r == Respond(P.Response.Help)
    ensures line == "SIZE" ==> r == Respond(P.Response.Size(42, 42))
    ensures r.ReportError? ==> r.outcome == ParseRequestReportErrors(line) && !r.outcome.Accepted?
  {
    match ParseRequestReportErrors(line)
    case Accepted(request) => Respond(ProcessRequest(request))
    case o => ReportError(o)
  }

  /** `handle_connection`: one reply per line until the stream ends or a read fails. */
  function HandleConnection(frames: seq<Frame>): (s: Session)
    ensures |s.replies| <= |frames|
  {
    if |frames| == 0 then Session([], PeerClosed)
    else
      match frames[0]
      case ReadError => Session([], ReadFailed)
      case Line(text) =>
        var rest := HandleConnection(frames[1..]);
        Session([ReplyTo(text)] + rest.replies, rest.end)
  }

  predicate AllLines(frames: seq<Frame>)
  {
    forall i :: 0 <= i < |frames| ==> frames[i].Line?
  }

  /** Without read errors, line i gets reply i: the response when the line is a whole request,
      an error line otherwise; and the connection ends only when the peer closes it. */
  lemma {:induction false} EveryLineAnswered(frames: seq<Frame>)
    requires AllLines(frames)
    ensures var s := HandleConnection(frames);
      && |s.replies| == |frames|
      && s.end == PeerClosed
      && forall i :: 0 <= i < |frames| ==>
        var o := ParseRequestReportErrors(frames[i].text);
        && (o.Accepted? ==> s.replies[i] == Respond(ProcessRequest(o.request)))
        && (!o.Accepted? ==> s.replies[i] == ReportError(o))
  {
    if |frames| > 0 {
      EveryLineAnswered(frames[1..]);
      var s := HandleConnection(frames);
      var rest := HandleConnection(frames[1..]);
      assert forall i :: 1 <= i < |frames| ==> s.replies[i] == rest.replies[i - 1];
    }
  }

  /** A read error ends the connection at once: nothing after it is answered. */
  lemma {:induction false} ReadErrorStops(lines: seq<Frame>, later: seq<Frame>)
    requires AllLines(lines)
    ensures var s := HandleConnection(lines + [ReadError] + later);
      && s.end == ReadFailed
      && s.replies == HandleConnection(lines).replies
  {
    if |lines| == 0 {
      assert lines + [ReadError] + later == [ReadError] + later;
    } else {
      assert (lines + [ReadError] + later)[1..] == lines[1..] + [ReadError] + later;
      ReadErrorStops(lines[1..], later);
    }
  }
}

=== FILE: client_connection.dfy ===
/** One connection of the later ASCII server revision: clients log in, paint pixels into a
    per-connection list, and submit the list with DONE. */
module ClientConnection {
  import opened Common
  import opened LineProtocol
  import Text
  import UM = UserManager
  import AsciiParser
  import AsciiServer

  datatype Request =
    | Help
    | Size
    | Login(username: string, password: string)
    | GetPixel(x: U16, y: U16)
    | SetPixel(x: U16, y: U16, rgba: U32)
    | Done

  datatype Response =
    | Help
    | Size(width: U16, height: U16)
    | LoginNeeded
    | LoginSucceeded
    | LoginFailed
    | GetPixel(x: U16, y: U16, rgba: U32)
    | Done(numPixels: nat)

  datatype PixelUpdate = PixelUpdate(x: U16, y: U16, rgba: U32)

  /** The connection's own fields, the `current_username` of its `run` loop, and the shared
      user manager's map, which a login may extend. */
  datatype Connection = Connection(
    width: U16,
    height: U16,
    painted: seq<PixelUpdate>,
    currentUsername: Option<string>,
    users: UM.Users)

  /** What the connection calls but this model does not define: the password hashing, whether
      the users file is written, the framebuffer's `get`, and whether the websocket channel
      accepts the DONE update. */
  datatype Env = Env(
    crypto: UM.Crypto,
    saveSucceeds: bool,
    pixelAt: (U16, U16) -> Option<U32>,
    updateSent: bool)

  datatype Error = CredentialsError(cause: UM.Error) | UnknownUsername | UpdateNotSent

  /** The connection after one request and the request's result: an optional response, or an
      error that ends the connection. */
  datatype Step = Step(conn: Connection, result: Result<Option<Response>, Error>)

  function NewConnection(width: U16, height: U16, users: UM.Users): (c: Connection)
    ensures c.painted == [] && c.currentUsername.None?
  {
    Connection(width, height, [], None, users)
  }

  /** `process_request`. */
  function ProcessRequest(c: Connection, req: Request, env: Env): (s: Step)
    ensures !req.Login? ==> s.conn.users == c.users && s.conn.currentUsername == c.currentUsername
    ensures s.conn.width == c.width && s.conn.height == c.height
    ensures req.Help? ==> s == Step(c, Ok(Some(Response.Help)))
    ensures req.Size? ==> s == Step(c, Ok(Some(Response.Size(c.width, c.height))))
    ensures req.Login? ==>
      var o := UM.CheckCredentials(c.users, req.username, req.password, env.crypto, env.saveSucceeds);
      && s.conn.users == o.users
      && s.conn.painted == c.painted
      && (o.result == Ok(true) <==> s.result == Ok(Some(LoginSucceeded)))
      && (o.result == Ok(false) <==> s.result == Ok(Some(LoginFailed)))
      && (s.result == Ok(Some(LoginSucceeded)) ==> s.conn.currentUsername == Some(req.username))
      && (s.result == Ok(Some(LoginFailed)) ==> s.conn.currentUsername.None?)
      && (o.result.Err? ==> s.result == Err(CredentialsError(o.result.error))
                            && s.conn.currentUsername == c.currentUsername)
    ensures req.GetPixel? ==> s.conn == c && s.result.Ok?
    ensures req.GetPixel? ==> (s.result.value.Some? <==> env.pixelAt(req.x, req.y).Some?)
    ensures req.SetPixel? && c.currentUsername.Some? ==>
      s == Step(c.(painted := c.painted + [PixelUpdate(req.x, req.y, req.rgba)]), Ok(None))
    ensures req.SetPixel? && c.currentUsername.None? ==> s == Step(c, Ok(Some(LoginNeeded)))
    ensures req.Done? ==> s.conn == c
    ensures req.Done? && c.currentUsername.None? ==> s.result == Err(UnknownUsername)
    ensures req.Done? && c.currentUsername.Some? ==>
      s.result == if env.updateSent then Ok(Some(Response.Done(|c.painted|))) else Err(UpdateNotSent)
  {
    match req
    case Help => Step(c, Ok(Some(Response.Help)))
    case Size => Step(c, Ok(Some(Response.Size(c.width, c.height))))
    case Login(username, password) =>
      var o := UM.CheckCredentials(c.users, username, password, env.crypto, env.saveSucceeds);
      var c' := c.(users := o.users);
      (match o.result
       case Err(e) => Step(c', Err(CredentialsError(e)))
       case Ok(true) => Step(c'.(currentUsername := Some(username)), Ok(Some(LoginSucceeded)))
       case Ok(false) => Step(c'.(currentUsername := None), Ok(Some(LoginFailed))))
    case GetPixel(x, y) =>
      (match env.pixelAt(x, y)
       case None => Step(c, Ok(None))
       case Some(rgba) => Step(c, Ok(Some(Response.GetPixel(x, y, rgba)))))
    case SetPixel(x, y, rgba) =>
      (match c.currentUsername
       case Some(_) => Step(c.(painted := c.painted + [PixelUpdate(x, y, rgba)]), Ok(None))
       case None => Step(c, Ok(Some(LoginNeeded))))
    case Done =>
      var numPixels := |c.painted|;
      if c.currentUsername.None? then Step(c, Err(UnknownUsername))
      else if !env.updateSent then Step(c, Err(UpdateNotSent))
      else Step(c, Ok(Some(Response.Done(numPixels))))
  }

  /** `send_response`: the line written for a response, and whether the connection closes
      after it. */
  function SendResponse(resp: Response): (out: (string, bool))
    ensures out.1 <==> resp.LoginNeeded? || resp.LoginFailed?
    ensures resp.Help? ==> out.0 == AsciiParser.HELP_TEXT
    ensures resp.Size? ==>
      Text.Split(out.0) == ["SIZE", Text.Decimal(resp.width), Text.Decimal(resp.height)]
    ensures resp.Done? ==> Text.Split(out.0) == ["DONE", Text.Decimal(resp.numPixels)]
    ensures resp.GetPixel? ==>
      Text.Split(out.0) == ["PX", Text.Decimal(resp.x), Text.Decimal(resp.y), Text.Hex(resp.rgba, 6)]
    ensures resp.Size? ==> out.0 == "SIZE " + Text.Decimal(resp.width) + " " + Text.Decimal(resp.height)
    ensures resp.Done? ==> out.0 == "DONE " + Text.Decimal(resp.numPixels)
    ensures resp.GetPixel? ==>
      out.0 == "PX " + Text.Decimal(resp.x) + " " + Text.Decimal(resp.y) + " " + Text.Hex(resp.rgba, 6)
    ensures resp.LoginNeeded? ==> out.0 == "ERROR LOGIN NEEDED"
    ensures resp.LoginSucceeded? ==> out.0 == "LOGIN SUCCEEDED"
    ensures resp.LoginFailed? ==> out.0 == "ERROR LOGIN FAILED"
  {
    match resp
    case Help => (AsciiParser.HELP_TEXT, false)
    case Size(width, height) => (SizeLine(width, height), false)
    case LoginNeeded => ("ERROR LOGIN NEEDED", true)
    case LoginSucceeded => ("LOGIN SUCCEEDED", false)
    case LoginFailed => ("ERROR LOGIN FAILED", true)
    case GetPixel(x, y, rgba) => (PixelLine(x, y, rgba), false)
    case Done(numPixels) => (DoneLine(numPixels), false)
  }

  /** `SIZE <width> <height>`. */
  function SizeLine(width: nat, height: nat): (line: string)
    ensures Text.Split(line) == ["SIZE", Text.Decimal(width), Text.Decimal(height)]
    ensures line == "SIZE " + Text.Decimal(width) + " " + Text.Decimal(height)
  {
    Text.JoinSpaced3("SIZE", Text.Decimal(width), Text.Decimal(height));
    assert "SIZE" + " " == "SIZE ";
    KeywordsAreWords();
    Text.DecimalIsWord(width);
    Text.DecimalIsWord(height);
    SpacedLine(["SIZE", Text.Decimal(width), Text.Decimal(height)])
  }

  /** `PX <x> <y> <rrggbb>`. */
  function PixelLine(x: nat, y: nat, rgba: nat): (line: string)
    ensures Text.Split(line) == ["PX", Text.Decimal(x), Text.Decimal(y), Text.Hex(rgba, 6)]
    ensures line == "PX " + Text.Decimal(x) + " " + Text.Decimal(y) + " " + Text.Hex(rgba, 6)
  {
    Text.JoinSpaced4("PX", Text.Decimal(x), Text.Decimal(y), Text.Hex(rgba, 6));
    assert "PX" + " " == "PX ";
    KeywordsAreWords();
    Text.DecimalIsWord(x);
    Text.DecimalIsWord(y);
    Text.HexIsWord(rgba, 6);
    SpacedLine(["PX", Text.Decimal(x), Text.Decimal(y), Text.Hex(rgba, 6)])
  }

  /** `DONE <count>`. */
  function DoneLine(numPixels: nat): (line: string)
    ensures Text.Split(line) == ["DONE", Text.Decimal(numPixels)]
    ensures line == "DONE " + Text.Decimal(numPixels)
  {
    Text.JoinSpaced2("DONE", Text.Decimal(numPixels));
    assert "DONE" + " " == "DONE ";
    KeywordsAreWords();
    Text.DecimalIsWord(numPixels);
    SpacedLine(["DONE", Text.Decimal(numPixels)])
  }

  /** The response keywords contain no whitespace. */
  lemma KeywordsAreWords()
    ensures Text.IsWord("SIZE") && Text.IsWord("PX") && Text.IsWord("DONE")
  {
    assert forall i :: 0 <= i < 4 ==> !Text.IsSpace("SIZE"[i]);
    assert forall i :: 0 <= i < 4 ==> !Text.IsSpace("DONE"[i]);
    assert forall i :: 0 <= i < 2 ==> !Text.IsSpace("PX"[i]);
  }

  /** A `format!` line of single-space separated words. */
  function SpacedLine(words: seq<string>): (line: string)
    requires forall i :: 0 <= i < |words| ==> Text.IsWord(words[i])
    ensures Text.Split(line) == words
    ensures line == Text.JoinSpaced(words)
  {
    Text.SplitJoinSpaced(words);
    Text.JoinSpaced(words)
  }

  const TOO_LONG_MESSAGE: string :=
    "ERROR The request line was too long. You can send at a maximum "
    + Text.Decimal(AsciiServer.MAX_INPUT_LINE_LENGTH)
    + " characters before you need to send a newline"

  /** What the line codec yields. */
  datatype Frame = Line(text: string) | TooLong | ReadFailed

  /** A line sent to the client: a response's text, or the error line for a line that is not a
      whole request (its Debug-formatted wording is not modelled). */
  datatype Sent = Written(line: string) | ParseErrorReport(outcome: LineOutcome<Request>)

  /** Why `run` returned. */
  datatype End =
    | InputEnded
    | ClosedAfterResponse
    | LineTooLong
    | ReadError
    | ProcessFailed(error: Error)

  datatype Run = Run(conn: Connection, sent: seq<Sent>, end: End)

  /** `run`: handle the frames in order; `parse` is the request parser of this revision. */
  function RunConnection(c: Connection, frames: seq<Frame>, env: Env, parse: string -> Parse<Request>)
    : (r: Run)
    ensures |r.sent| <= |frames|
    ensures r.conn.width == c.width && r.conn.height == c.height
    decreases |frames|
  {
    if |frames| == 0 then Run(c, [], InputEnded)
    else
      match frames[0]
      case TooLong => Run(c, [Written(TOO_LONG_MESSAGE)], LineTooLong)
      case ReadFailed => Run(c, [], ReadError)
      case Line(text) =>
        if text == "" then RunConnection(c, frames[1..], env, parse)
        else
          match ReportErrors(text, parse(text))
          case Accepted(req) =>
            var step := ProcessRequest(c, req, env);
            (match step.result
             case Err(e) => Run(step.conn, [], ProcessFailed(e))
             case Ok(None) => RunConnection(step.conn, frames[1..], env, parse)
             case Ok(Some(resp)) =>
               var (line, close) := SendResponse(resp);
               if close then Run(step.conn, [Written(line)], ClosedAfterResponse)
               else
                 var rest := RunConnection(step.conn, frames[1..], env, parse);
                 Run(rest.conn, [Written(line)] + rest.sent, rest.end))
          case outcome =>
            var rest := RunConnection(c, frames[1..], env, parse);
            Run(rest.conn, [ParseErrorReport(outcome)] + rest.sent, rest.end)
  }

  /** Empty lines are skipped without any reply. */
  lemma EmptyLineSkipped(c: Connection, frames: seq<Frame>, env: Env, parse: string -> Parse<Request>)
    ensures RunConnection(c, [Line("")] + frames, env, parse) == RunConnection(c, frames, env, parse)
  {
    assert ([Line("")] + frames)[1..] == frames;
  }

  /** A line the parser accepts but that leaves LoginNeeded or LoginFailed as response is the
      last thing the connection answers: later frames are never read. */
  lemma ClosingResponseEndsRun(c: Connection, text: string, frames: seq<Frame>, env: Env,
                               parse: string -> Parse<Request>)
    requires text != "" && parse(text).Parsed? && parse(text).rest == ""
    requires var s := ProcessRequest(c, parse(text).request, env);
      s.result == Ok(Some(LoginNeeded)) || s.result == Ok(Some(LoginFailed))
    ensures var s := ProcessRequest(c, parse(text).request, env);
      RunConnection(c, [Line(text)] + frames, env, parse) ==
        Run(s.conn, [Written(SendResponse(s.result.value.value).0)], ClosedAfterResponse)
  {
    assert ([Line(text)] + frames)[0] == Line(text);
  }

  /** `painted` only grows during a connection: a run never drops or rewrites a painted
      pixel, and each frame adds at most one. */
  lemma {:induction false} PaintedOnlyGrows(c: Connection, frames: seq<Frame>, env: Env,
                                            parse: string -> Parse<Request>)
    ensures var r := RunConnection(c, frames, env, parse);
      && c.painted <= r.conn.painted
      && |r.conn.painted| <= |c.painted| + |frames|
    decreases |frames|
  {
    if |frames| > 0 && frames[0].Line? && frames[0].text != "" {
      var text := frames[0].text;
      match ReportErrors(text, parse(text))
      case Accepted(req) =>
        var step := ProcessRequest(c, req, env);
        PaintedOnlyGrows(step.conn, frames[1..], env, parse);
      case _ =>
        PaintedOnlyGrows(c, frames[1..], env, parse);
    } else if |frames| > 0 && frames[0].Line? {
      PaintedOnlyGrows(c, frames[1..], env, parse);
    }
  }

  /** A non-empty line that the parser accepts as a whole Login request. */
  predicate IsLoginLine(f: Frame, parse: string -> Parse<Request>)
  {
    f.Line? && f.text != "" && parse(f.text).Parsed? && parse(f.text).rest == "" && parse(f.text).request.Login?
  }

  /** Without a login nothing is ever painted: until a Login line is read, a logged-out
      connection stays logged out and keeps `painted` as it is, whatever else it reads. */
  lemma {:induction false} LoggedOutPaintsNothing(c: Connection, frames: seq<Frame>, env: Env,
                                                  parse: string -> Parse<Request>)
    requires c.currentUsername.None?
    requires forall i :: 0 <= i < |frames| ==> !IsLoginLine(frames[i], parse)
    ensures var r := RunConnection(c, frames, env, parse);
      r.conn.painted == c.painted && r.conn.currentUsername.None?
    decreases |frames|
  {
    if |frames| > 0 && frames[0].Line? {
      var text := frames[0].text;
      assert !IsLoginLine(frames[0], parse);
      if text == "" {
        LoggedOutPaintsNothing(c, frames[1..], env, parse);
      } else {
        match ReportErrors(text, parse(text))
        case Accepted(req) =>
          assert ProcessRequest(c, req, env).conn == c;
          LoggedOutPaintsNothing(c, frames[1..], env, parse);
        case _ =>
          LoggedOutPaintsNothing(c, frames[1..], env, parse);
      }
    }
  }

  /** DONE reports every pixel painted since the connection opened, not only those since the
      previous DONE: `painted` is never cleared. */
  lemma DoneCountsAllPainted(c: Connection, env: Env)
    requires c.currentUsername.Some? && env.updateSent
    ensures var s := ProcessRequest(c, Request.Done, env);
      && s.result == Ok(Some(Response.Done(|c.painted|)))
      && ProcessRequest(s.conn, Request.Done, env) == s
  {
  }
}

=== FILE: common.dfy ===
/** Fixed-width integer types and failure-carrying wrappers shared by every module. */
module Common {

  /** Rust's `u8`, `u16` and `u32`, as ranges of the unbounded integers. */
  type U8 = x: int | 0 <= x < 0x100
  type U16 = x: int | 0 <= x < 0x1_0000
  type U32 = x: int | 0 <= x < 0x1_0000_0000

  const U16_MAX: int := 0xFFFF
  const U32_MODULUS: int := 0x1_0000_0000

  datatype Option<+T> = None | Some(value: T)

  /** A value or an error, as Rust's `Result` and Python's raised exceptions. */
  datatype Result<+T, +E> = Ok(value: T) | Err(error: E)
}

/** Byte-order conversions: Rust's `to_le_bytes` and `BufMut::put_u16` / `put_u32`. */
module Bytes {
  import opened Common

  /** The value of a little-endian byte string: the first byte is the least significant. */
  function LeValue(bs: seq<U8>): nat
  {
    if |bs| == 0 then 0 else bs[0] + 0x100 * LeValue(bs[1..])
  }

  /** The value of a big-endian byte string: the last byte is the least significant. */
  function BeValue(bs: seq<U8>): nat
  {
    if |bs| == 0 then 0 else 0x100 * BeValue(bs[..|bs| - 1]) + bs[|bs| - 1]
  }

  /** `(v >> 8k) & 0xFF`: byte number k of v, counted from the least significant end. */
  function ByteOf(v: nat, k: nat): U8
  {
    if k == 0 then v % 0x100 else ByteOf(v / 0x100, k - 1)
  }

  /** Splitting off the low byte of `lo + 0x100 * hi`. */
  lemma DivMod256(x: int, lo: int, hi: int)
    requires 0 <= lo < 0x100 && x == lo + 0x100 * hi
    ensures x / 0x100 == hi && x % 0x100 == lo
  {
  }

  /** The successive quotients of v by 0x100 give its bytes. */
  lemma Quotients(v: U32)
    ensures v / 0x100 < 0x100_0000 && v / 0x100 / 0x100 < 0x1_0000 && v / 0x100 / 0x100 / 0x100 < 0x100
    ensures v == v % 0x100 + 0x100 * (v / 0x100 % 0x100 + 0x100 * (v / 0x100 / 0x100 % 0x100
                 + 0x100 * (v / 0x100 / 0x100 / 0x100)))
    ensures ByteOf(v, 0) == v % 0x100 && ByteOf(v, 1) == v / 0x100 % 0x100
    ensures ByteOf(v, 2) == v / 0x100 / 0x100 % 0x100 && ByteOf(v, 3) == v / 0x100 / 0x100 / 0x100
  {
    var q1 := v / 0x100;
    var q2 := q1 / 0x100;
    var q3 := q2 / 0x100;
    assert ByteOf(v, 3) == ByteOf(q1, 2) == ByteOf(q2, 1) == ByteOf(q3, 0);
    assert ByteOf(v, 2) == ByteOf(q1, 1) == ByteOf(q2, 0);
  }

  /** `u32::to_le_bytes`. */
  function LeBytes32(v: U32): (bs: seq<U8>)
    ensures |bs| == 4
    ensures LeValue(bs) == v
    ensures forall k :: 0 <= k < 4 ==> bs[k] == ByteOf(v, k)
  {
    Quotients(v);
    var q1 := v / 0x100;
    var q2 := q1 / 0x100;
    var q3 := q2 / 0x100;
    var bs := [v % 0x100, q1 % 0x100, q2 % 0x100, q3];
    assert LeValue(bs[3..]) == q3 by { assert bs[3..][1..] == []; }
    assert LeValue(bs[2..]) == bs[2] + 0x100 * q3 by { assert bs[2..][1..] == bs[3..]; }
    assert LeValue(bs[1..]) == bs[1] + 0x100 * LeValue(bs[2..]) by { assert bs[1..][1..] == bs[2..]; }
    bs
  }

  /** `put_u16`: two bytes, most significant first. */
  function BeBytes16(v: U16): (bs: seq<U8>)
    ensures |bs| == 2
    ensures BeValue(bs) == v
    ensures bs[0] == ByteOf(v, 1) && bs[1] == ByteOf(v, 0)
  {
    var bs := [v / 0x100, v % 0x100];
    assert BeValue(bs[..1]) == v / 0x100 by { assert bs[..1][..0] == []; }
    bs
  }

  /** `put_u32`: four bytes, most significant first. */
  function BeBytes32(v: U32): (bs: seq<U8>)
    ensures |bs| == 4
    ensures BeValue(bs) == v
    ensures forall k :: 0 <= k < 4 ==> bs[k] == ByteOf(v, 3 - k)
  {
    Quotients(v);
    var q1 := v / 0x100;
    var q2 := q1 / 0x100;
    var q3 := q2 / 0x100;
    var bs := [q3, q2 % 0x100, q1 % 0x100, v % 0x100];
    assert BeValue(bs[..1]) == q3 by { assert bs[..1][..0] == []; }
    assert BeValue(bs[..2]) == 0x100 * q3 + bs[1] by { assert bs[..2][..1] == bs[..1]; }
    assert BeValue(bs[..3]) == 0x100 * BeValue(bs[..2]) + bs[2] by { assert bs[..3][..2] == bs[..2]; }
    assert bs[..4] == bs;
    bs
  }

  /** Regrouping four little-endian bytes gives back the u32 they came from. */
  lemma LeRoundTrip(bs: seq<U8>)
    requires |bs| == 4
    ensures LeValue(bs) < U32_MODULUS
    ensures LeBytes32(LeValue(bs)) == bs
  {
    var b0, b1, b2, b3 := bs[0] as int, bs[1] as int, bs[2] as int, bs[3] as int;
    assert LeValue(bs[3..]) == b3 by { assert bs[3..][1..] == []; }
    assert LeValue(bs[2..]) == b2 + 0x100 * b3 by { assert bs[2..][1..] == bs[3..]; }
    var x2 := b2 + 0x100 * b3;
    var x1 := b1 + 0x100 * x2;
    var v := b0 + 0x100 * x1;
    assert LeValue(bs[1..]) == x1 by { assert bs[1..][1..] == bs[2..]; }
    assert LeValue(bs) == v;
    assert x2 < 0x1_0000;
    assert x1 < 0x100_0000;
    DivMod256(v, b0, x1);
    DivMod256(x1, b1, x2);
    DivMod256(x2, b2, b3);
  }

  /** Four big-endian bytes decode to a u32 that encodes back to the same bytes. */
  lemma BeRoundTrip32(bs: seq<U8>)
    requires |bs| == 4
    ensures BeValue(bs) < U32_MODULUS
    ensures BeBytes32(BeValue(bs)) == bs
  {
    var b0, b1, b2, b3 := bs[0] as int, bs[1] as int, bs[2] as int, bs[3] as int;
    assert BeValue(bs[..1]) == b0 by { assert bs[..1][..0] == []; }
    assert BeValue(bs[..2]) == b1 + 0x100 * b0 by { assert bs[..2][..1] == bs[..1]; }
    var x2 := b1 + 0x100 * b0;
    var x1 := b2 + 0x100 * x2;
    var v := b3 + 0x100 * x1;
    assert BeValue(bs[..3]) == x1 by { assert bs[..3][..2] == bs[..2]; }
    assert bs[..4] == bs;
    assert BeValue(bs) == v;
    assert x2 < 0x1_0000;
    assert x1 < 0x100_0000;
    DivMod256(v, b3, x1);
    DivMod256(x1, b2, x2);
    DivMod256(x2, b1, b0);
  }

  /** Two big-endian bytes decode to a u16 that encodes back to the same bytes. */
  lemma BeRoundTrip16(bs: seq<U8>)
    requires |bs| == 2
    ensures BeValue(bs) <= U16_MAX
    ensures BeBytes16(BeValue(bs)) == bs
  {
    assert BeValue(bs[..1]) == bs[0] by { assert bs[..1][..0] == []; }
    assert bs[..2] == bs;
    DivMod256(BeValue(bs), bs[1], bs[0]);
  }
}

=== FILE: framebuffer.dfy ===
/** The server's framebuffer: a flat row of `width * height` u32 pixels, the two ways it
    is repainted, and its serialisation into the `ScreenSync` snapshot message. */
module FrameBuffer {
  import opened Common
  import Bytes

  datatype FrameBuffer = FrameBuffer(width: U32, height: U32, pixels: seq<U32>)

  /** The `ScreenSync` protobuf message: 4 bytes per pixel. */
  datatype ScreenSync = ScreenSync(width: U32, height: U32, pixels: seq<U8>)

  /** The three channels a gradient lookup yields (its alpha is discarded). */
  datatype Rgb = Rgb(r: U8, g: U8, b: U8)

  /** One u32 per pixel of the width×height grid. */
  predicate WellSized(fb: FrameBuffer)
  {
    |fb.pixels| == fb.width * fb.height
  }

  /** `FrameBuffer::new`: a black (all-zero) buffer of the given dimensions. */
  function New(width: U32, height: U32): (fb: FrameBuffer)
    ensures fb.width == width && fb.height == height
    ensures WellSized(fb)
    ensures forall i :: 0 <= i < |fb.pixels| ==> fb.pixels[i] == 0
  {
    FrameBuffer(width, height, seq(width * height, _ => 0))
  }

  /** `num_pixels`: the u32 product `width * height`, which wraps around (release build)
      when it does not fit. */
  function NumPixels(fb: FrameBuffer): (n: U32)
    ensures fb.width * fb.height < U32_MODULUS ==> n == fb.width * fb.height
    ensures fb.width * fb.height >= U32_MODULUS ==> n < fb.width * fb.height
  {
    var product: nat := fb.width * fb.height;
    product % U32_MODULUS
  }

  /** `fill_with_random_color`, with the random colour as a parameter. */
  function FillWithColor(fb: FrameBuffer, color: U32): (r: FrameBuffer)
    ensures r.width == fb.width && r.height == fb.height
    ensures |r.pixels| == |fb.pixels|
    ensures forall i :: 0 <= i < |r.pixels| ==> r.pixels[i] == color
  {
    fb.(pixels := seq(|fb.pixels|, _ => color))
  }

  /** Filling twice with one colour is the same as filling once, and filling keeps the
      length invariant. */
  lemma FillWithColorIdempotent(fb: FrameBuffer, color: U32)
    ensures FillWithColor(FillWithColor(fb, color), color) == FillWithColor(fb, color)
    ensures WellSized(fb) ==> WellSized(FillWithColor(fb, color))
  {
  }

  /** The packing `r | g << 8 | b << 16` of `fill_with_rainbow`; the three bytes occupy
      disjoint bits, so the bitwise or is their sum. */
  function RainbowPixel(c: Rgb): (p: U32)
    ensures p < 0x100_0000
    ensures Bytes.LeBytes32(p) == [c.r, c.g, c.b, 0]
  {
    var p := c.r + 0x100 * c.g + 0x1_0000 * c.b;
    assert p / 0x100 == c.g + 0x100 * c.b;
    assert p / 0x100 / 0x100 == c.b;
    p
  }

  /** The packed shades of pixels 0 .. n - 1. */
  function RainbowPixels(n: nat, shade: nat -> Rgb): (ps: seq<U32>)
    ensures |ps| == n
    ensures forall i :: 0 <= i < n ==> ps[i] == RainbowPixel(shade(i))
  {
    if n == 0 then [] else RainbowPixels(n - 1, shade) + [RainbowPixel(shade(n - 1))]
  }

  /** `fill_with_rainbow`, with the colour gradient abstracted as `shade`, which gives the
      colour of each pixel index. */
  function FillWithRainbow(fb: FrameBuffer, shade: nat -> Rgb): (r: FrameBuffer)
    ensures r.width == fb.width && r.height == fb.height
    ensures |r.pixels| == NumPixels(fb)
    ensures forall i :: 0 <= i < |r.pixels| ==> r.pixels[i] < 0x100_0000
    ensures fb.width * fb.height < U32_MODULUS ==> WellSized(r)
  {
    fb.(pixels := RainbowPixels(NumPixels(fb), shade))
  }

  /** When `width * height` overflows u32, the repainted buffer no longer has one entry per
      pixel: it is shorter than the grid it stands for. */
  lemma RainbowShrinksOnOverflow(fb: FrameBuffer, shade: nat -> Rgb)
    requires fb.width * fb.height >= U32_MODULUS
    ensures |FillWithRainbow(fb, shade).pixels| < fb.width * fb.height
  {
  }

  /** `pixels.iter().flat_map(|p| p.to_le_bytes())`. */
  function LeFlatten(ps: seq<U32>): (bs: seq<U8>)
    ensures |bs| == 4 * |ps|
  {
    if |ps| == 0 then [] else Bytes.LeBytes32(ps[0]) + LeFlatten(ps[1..])
  }

  /** Reading a byte string back four bytes at a time, least significant byte first. */
  function Regroup(bs: seq<U8>): (ps: seq<U32>)
    requires |bs| % 4 == 0
    ensures 4 * |ps| == |bs|
  {
    if |bs| == 0 then []
    else
      Bytes.LeRoundTrip(bs[..4]);
      [Bytes.LeValue(bs[..4])] + Regroup(bs[4..])
  }

  /** `impl Into<ScreenSync> for &FrameBuffer`. */
  function ToScreenSync(fb: FrameBuffer): (s: ScreenSync)
    ensures s.width == fb.width && s.height == fb.height
    ensures |s.pixels| == 4 * |fb.pixels|
    ensures WellSized(fb) ==> |s.pixels| == fb.width * fb.height * 4
  {
    ScreenSync(fb.width, fb.height, LeFlatten(fb.pixels))
  }

  /** Bytes 4i .. 4i+4 of the flattened pixels are the little-endian bytes of pixel i. */
  lemma {:induction false} LeFlattenSlice(ps: seq<U32>, i: nat)
    requires i < |ps|
    ensures LeFlatten(ps)[4 * i .. 4 * i + 4] == Bytes.LeBytes32(ps[i])
  {
    var bs := LeFlatten(ps);
    if i == 0 {
      assert bs[..4] == Bytes.LeBytes32(ps[0]);
    } else {
      LeFlattenSlice(ps[1..], i - 1);
      assert bs[4..] == LeFlatten(ps[1..]);
      assert bs[4 * i .. 4 * i + 4] == bs[4..][4 * (i - 1) .. 4 * (i - 1) + 4];
    }
  }

  /** Byte 4i+k of a snapshot is `(pixels[i] >> 8k) & 0xFF`, and the four bytes of pixel i
      regroup to pixels[i]. */
  lemma SnapshotBytes(fb: FrameBuffer, i: nat, k: nat)
    requires i < |fb.pixels| && k < 4
    ensures ToScreenSync(fb).pixels[4 * i + k] == Bytes.ByteOf(fb.pixels[i], k)
    ensures Bytes.LeValue(ToScreenSync(fb).pixels[4 * i .. 4 * i + 4]) == fb.pixels[i]
  {
    LeFlattenSlice(fb.pixels, i);
    var bs := ToScreenSync(fb).pixels;
    assert bs[4 * i + k] == bs[4 * i .. 4 * i + 4][k];
  }

  /** Regrouping a snapshot's bytes recovers the framebuffer's pixels exactly. */
  lemma {:induction false} SnapshotRoundTrip(ps: seq<U32>)
    ensures Regroup(LeFlatten(ps)) == ps
  {
    if |ps| > 0 {
      var bs := LeFlatten(ps);
      assert bs[..4] == Bytes.LeBytes32(ps[0]);
      assert bs[4..] == LeFlatten(ps[1..]);
      SnapshotRoundTrip(ps[1..]);
    }
  }

  /** In a snapshot of a rainbow-filled buffer, pixel i reads as the shade's R, G, B bytes
      followed by an alpha byte that is always 0. */
  lemma RainbowSnapshotChannels(fb: FrameBuffer, shade: nat -> Rgb, i: nat)
    requires i < |FillWithRainbow(fb, shade).pixels|
    ensures var s := ToScreenSync(FillWithRainbow(fb, shade));
      && s.pixels[4 * i] == shade(i).r
      && s.pixels[4 * i + 1] == shade(i).g
      && s.pixels[4 * i + 2] == shade(i).b
      && s.pixels[4 * i + 3] == 0
  {
    var r := FillWithRainbow(fb, shade);
    LeFlattenSlice(r.pixels, i);
    var bs := ToScreenSync(r).pixels;
    assert bs[4 * i .. 4 * i + 4] == [shade(i).r, shade(i).g, shade(i).b, 0];
    assert bs[4 * i + 3] == bs[4 * i .. 4 * i + 4][3];
    assert bs[4 * i + 2] == bs[4 * i .. 4 * i + 4][2];
    assert bs[4 * i + 1] == bs[4 * i .. 4 * i + 4][1];
    assert bs[4 * i] == bs[4 * i .. 4 * i + 4][0];
  }
}

=== FILE: line_protocol.dfy ===
/** The rule both ASCII servers apply to a parsed line: a request counts only when the parser
    consumed the whole line; otherwise the client is told about the error. */
module LineProtocol {

  /** A nom parser's result after `finish()`: the unconsumed rest of the input and the
      request, or a parse error. */
  datatype Parse<R> = Parsed(rest: string, request: R) | Unparsable

  /** The outcome of `parse_request_report_errors`: the request, or which of the two error
      lines the client is sent. */
  datatype LineOutcome<R> =
    | Accepted(request: R)
    | Trailing(line: string, request: R, remaining: string)
    | Invalid(line: string)

  function ReportErrors<R>(line: string, p: Parse<R>): (o: LineOutcome<R>)
    ensures o.Accepted? <==> p.Parsed? && p.rest == ""
    ensures o.Accepted? ==> o.request == p.request
    ensures o.Trailing? <==> p.Parsed? && p.rest != ""
    ensures o.Trailing? ==> o == Trailing(line, p.request, p.rest)
    ensures o.Invalid? <==> p.Unparsable?
  {
    match p
    case Parsed(rest, request) => if rest == "" then Accepted(request) else Trailing(line, request, rest)
    case Unparsable => Invalid(line)
  }
}

=== FILE: paint_batch.dfy ===
/** The demo painter `random_client_paints_loop`: each tick it paints a SIZE×SIZE square of one
    colour and ships it as `painted` bytes, 8 bytes per pixel. */
module PaintBatch {
  import opened Common
  import Bytes

  /** The side of the painted square. */
  const SIZE: nat := 300

  /** One painted pixel as it travels in the `painted` bytes. */
  datatype PaintRecord = PaintRecord(x: U16, y: U16, color: U32)

  /** `put_u16(x); put_u16(y); put_u32(color)`: all three fields big-endian. */
  function EncodeRecord(r: PaintRecord): (bs: seq<U8>)
    ensures |bs| == 8
    ensures Bytes.BeValue(bs[..2]) == r.x
    ensures Bytes.BeValue(bs[2..4]) == r.y
    ensures Bytes.BeValue(bs[4..]) == r.color
  {
    var bs := Bytes.BeBytes16(r.x) + Bytes.BeBytes16(r.y) + Bytes.BeBytes32(r.color);
    assert bs[..2] == Bytes.BeBytes16(r.x);
    assert bs[2..4] == Bytes.BeBytes16(r.y);
    assert bs[4..] == Bytes.BeBytes32(r.color);
    bs
  }

  function EncodeRecords(rs: seq<PaintRecord>): (bs: seq<U8>)
    ensures |bs| == 8 * |rs|
  {
    if |rs| == 0 then [] else EncodeRecord(rs[0]) + EncodeRecords(rs[1..])
  }

  /** The byte count is not a whole number of 8-byte records. */
  datatype BatchError = Truncated(length: nat)

  function DecodeRecord(bs: seq<U8>): PaintRecord
    requires |bs| == 8
  {
    Bytes.BeRoundTrip16(bs[..2]);
    Bytes.BeRoundTrip16(bs[2..4]);
    Bytes.BeRoundTrip32(bs[4..]);
    PaintRecord(Bytes.BeValue(bs[..2]), Bytes.BeValue(bs[2..4]), Bytes.BeValue(bs[4..]))
  }

  function DecodeWhole(bs: seq<U8>): (rs: seq<PaintRecord>)
    requires |bs| % 8 == 0
    ensures 8 * |rs| == |bs|
  {
    if |bs| == 0 then [] else [DecodeRecord(bs[..8])] + DecodeWhole(bs[8..])
  }

  /** Reading `painted` bytes back into records, in stream order. */
  function DecodeRecords(bs: seq<U8>): (r: Result<seq<PaintRecord>, BatchError>)
    ensures r.Err? <==> |bs| % 8 != 0
    ensures r.Ok? ==> 8 * |r.value| == |bs|
  {
    if |bs| % 8 != 0 then Err(Truncated(|bs|)) else Ok(DecodeWhole(bs))
  }

  /** Decoding a batch gives back exactly the records that were encoded, in order. */
  lemma {:induction false} BatchRoundTrip(rs: seq<PaintRecord>)
    ensures DecodeRecords(EncodeRecords(rs)) == Ok(rs)
  {
    if |rs| > 0 {
      var bs := EncodeRecords(rs);
      assert bs[..8] == EncodeRecord(rs[0]);
      assert bs[8..] == EncodeRecords(rs[1..]);
      BatchRoundTrip(rs[1..]);
      assert DecodeRecord(bs[..8]) == rs[0];
      assert DecodeWhole(bs[8..]) == rs[1..];
      assert DecodeWhole(bs) == [rs[0]] + rs[1..];
      assert [rs[0]] + rs[1..] == rs;
    }
  }

  lemma {:induction false} EncodeRecordsAppend(rs: seq<PaintRecord>, r: PaintRecord)
    ensures EncodeRecords(rs + [r]) == EncodeRecords(rs) + EncodeRecord(r)
  {
    if |rs| == 0 {
      assert rs + [r] == [r];
    } else {
      assert (rs + [r])[1..] == rs[1..] + [r];
      EncodeRecordsAppend(rs[1..], r);
    }
  }

  /** Record k occupies bytes 8k .. 8k+8 of the batch. */
  lemma {:induction false} EncodeRecordsSlice(rs: seq<PaintRecord>, k: nat)
    requires k < |rs|
    ensures EncodeRecords(rs)[8 * k .. 8 * k + 8] == EncodeRecord(rs[k])
  {
    var head := EncodeRecord(rs[0]);
    var tail := EncodeRecords(rs[1..]);
    assert EncodeRecords(rs) == head + tail;
    if k == 0 {
      assert (head + tail)[..8] == head;
    } else {
      EncodeRecordsSlice(rs[1..], k - 1);
      SliceAfter(head, tail, 8 * (k - 1), 8 * (k - 1) + 8);
    }
  }

  lemma SliceAfter<T>(a: seq<T>, b: seq<T>, lo: nat, hi: nat)
    requires lo <= hi <= |b|
    ensures (a + b)[|a| + lo .. |a| + hi] == b[lo..hi]
  {
  }

  /** The start of the square fits so that `start + SIZE` is still a u16. */
  predicate StartFits(start: U16)
  {
    start + SIZE <= U16_MAX
  }

  /** The records of one square in the order the loops visit them: record k is at
      x = startX + k / SIZE, y = startY + k % SIZE. */
  function BatchRecords(startX: U16, startY: U16, color: U32): (rs: seq<PaintRecord>)
    requires StartFits(startX) && StartFits(startY)
    ensures |rs| == SIZE * SIZE
    ensures forall k :: 0 <= k < |rs| ==>
      && startX <= rs[k].x < startX + SIZE
      && startY <= rs[k].y < startY + SIZE
      && rs[k].color == color
  {
    seq(SIZE * SIZE, k requires 0 <= k < SIZE * SIZE =>
      PaintRecord(startX + k / SIZE, startY + k % SIZE, color))
  }

  /** The records come x-major: x never decreases, and within one x, y strictly increases. */
  lemma BatchOrder(startX: U16, startY: U16, color: U32, j: nat, k: nat)
    requires StartFits(startX) && StartFits(startY)
    requires j < k < SIZE * SIZE
    ensures var rs := BatchRecords(startX, startY, color);
      rs[j].x < rs[k].x || (rs[j].x == rs[k].x && rs[j].y < rs[k].y)
  {
    var rs := BatchRecords(startX, startY, color);
    assert rs[j].x - startX == j / SIZE && rs[k].x - startX == k / SIZE;
    assert j == SIZE * (j / SIZE) + j % SIZE && k == SIZE * (k / SIZE) + k % SIZE;
  }

  /** Every pixel of the square appears exactly once: (x, y) is record (x-startX)*SIZE + (y-startY). */
  lemma BatchCoversSquare(startX: U16, startY: U16, color: U32, x: int, y: int)
    requires StartFits(startX) && StartFits(startY)
    requires startX <= x < startX + SIZE && startY <= y < startY + SIZE
    ensures var k := (x - startX) * SIZE + (y - startY);
      && 0 <= k < SIZE * SIZE
      && BatchRecords(startX, startY, color)[k] == PaintRecord(x, y, color)
  {
    var k := (x - startX) * SIZE + (y - startY);
    assert k / SIZE == x - startX && k % SIZE == y - startY;
  }

  /** One pass of the inner loop body appends the record at position k of the batch. */
  lemma PaintStep(startX: U16, startY: U16, color: U32, x: U16, y: U16, painted: seq<U8>)
    requires StartFits(startX) && StartFits(startY)
    requires startX <= x < startX + SIZE && startY <= y < startY + SIZE
    requires painted == EncodeRecords(BatchRecords(startX, startY, color)[..(x - startX) * SIZE + (y - startY)])
    ensures painted + Bytes.BeBytes16(x) + Bytes.BeBytes16(y) + Bytes.BeBytes32(color)
      == EncodeRecords(BatchRecords(startX, startY, color)[..(x - startX) * SIZE + (y - startY) + 1])
  {
    var all := BatchRecords(startX, startY, color);
    var k := (x - startX) * SIZE + (y - startY);
    BatchCoversSquare(startX, startY, color, x, y);
    assert all[..k + 1] == all[..k] + [all[k]];
    EncodeRecordsAppend(all[..k], all[k]);
  }

  /** The nested `for x in start_x..end_x { for y in start_y..end_y { .. } }` loop that fills
      `painted`. */
  method EncodePainted(startX: U16, startY: U16, color: U32) returns (painted: seq<U8>)
    requires StartFits(startX) && StartFits(startY)
    ensures painted == EncodeRecords(BatchRecords(startX, startY, color))
    ensures |painted| == 8 * SIZE * SIZE
    ensures DecodeRecords(painted) == Ok(BatchRecords(startX, startY, color))
  {
    ghost var all := BatchRecords(startX, startY, color);
    painted := [];
    var x: U16 := startX;
    while x < startX + SIZE
      invariant startX <= x <= startX + SIZE
      invariant painted == EncodeRecords(all[..(x - startX) * SIZE])
    {
      var y: U16 := startY;
      while y < startY + SIZE
        invariant startY <= y <= startY + SIZE
        invariant painted == EncodeRecords(all[..(x - startX) * SIZE + (y - startY)])
      {
        PaintStep(startX, startY, color, x, y, painted);
        painted := painted + Bytes.BeBytes16(x) + Bytes.BeBytes16(y) + Bytes.BeBytes32(color);
        y := y + 1;
      }
      assert (x - startX) * SIZE + SIZE == (x + 1 - startX) * SIZE;
      x := x + 1;
    }
    assert all[..SIZE * SIZE] == all;
    BatchRoundTrip(all);
  }

  /** `rng.gen_range(0..dim.saturating_sub(SIZE))` with the generator's draw as `pick`; on an
      empty range `gen_range` panics, which is `None` here. */
  function ChooseStart(dim: U16, pick: nat): (r: Option<U16>)
    ensures r.None? <==> dim <= SIZE
    ensures r.Some? ==> r.value + SIZE <= dim - 1
  {
    var bound := if dim > SIZE then dim - SIZE else 0;
    if bound == 0 then None else Some(pick % bound)
  }

  /** A square whose start was chosen on a width×height screen lies entirely on the screen. */
  lemma BatchWithinScreen(width: U16, height: U16, pickX: nat, pickY: nat, color: U32)
    requires ChooseStart(width, pickX).Some? && ChooseStart(height, pickY).Some?
    ensures var sx := ChooseStart(width, pickX).value;
      var sy := ChooseStart(height, pickY).value;
      && StartFits(sx) && StartFits(sy)
      && forall r :: r in BatchRecords(sx, sy, color) ==> r.x < width && r.y < height
  {
  }
}

=== FILE: python_client.dfy ===
/** The sample painting client: it loads an image into a list of pixels, asks the server for
    the screen size, and in every slot paints as much of the image as its pixel count and time
    allow, continuing where the previous slot stopped. */
module PythonClient {
  import opened Common
  import Text
  import FB = FrameBuffer
  import CC = ClientConnection

  /** One entry of the list `load_image` returns: image coordinates and a colour string. */
  datatype ImagePixel = ImagePixel(x: nat, y: nat, color: string)

  /** `'{:02x}{:02x}{:02x}'.format(r, g, b)`. */
  function ColorHex(c: FB.Rgb): (s: string)
    ensures |s| == 6 && Text.IsHexDigits(s)
    ensures Text.HexValue(s[..2]) == c.r
    ensures Text.HexValue(s[2..4]) == c.g
    ensures Text.HexValue(s[4..]) == c.b
  {
    var s := Text.Hex(c.r, 2) + Text.Hex(c.g, 2) + Text.Hex(c.b, 2);
    assert s[..2] == Text.Hex(c.r, 2);
    assert s[2..4] == Text.Hex(c.g, 2);
    assert s[4..] == Text.Hex(c.b, 2);
    s
  }

  /** Two hex digits never exceed 0xff. */
  lemma HexPairBound(s: string)
    requires |s| == 2 && Text.IsHexDigits(s)
    ensures Text.HexValue(s) < 0x100
  {
    var hi := s[..1];
    assert hi[..0] == [];
    assert Text.HexValue(hi) == Text.HexDigitValue(s[0]);
    assert s[..|s| - 1] == hi;
  }

  /** Reading a six-digit colour string back into its channels. */
  function ColorOfHex(s: string): (c: FB.Rgb)
    requires |s| == 6 && Text.IsHexDigits(s)
  {
    HexPairBound(s[..2]);
    HexPairBound(s[2..4]);
    HexPairBound(s[4..]);
    FB.Rgb(Text.HexValue(s[..2]), Text.HexValue(s[2..4]), Text.HexValue(s[4..]))
  }

  /** The colour string determines the colour: reading it back gives the same channels. */
  lemma ColorRoundTrip(c: FB.Rgb)
    ensures ColorOfHex(ColorHex(c)) == c
  {
  }

  /** The inner comprehension `for x in range(width)` of row y. */
  function Row(width: nat, y: nat, getpixel: (nat, nat) -> FB.Rgb): (row: seq<ImagePixel>)
    ensures |row| == width
    ensures forall x :: 0 <= x < width ==> row[x] == ImagePixel(x, y, ColorHex(getpixel(x, y)))
  {
    seq(width, x requires 0 <= x < width => ImagePixel(x, y, ColorHex(getpixel(x, y))))
  }

  /** `load_image`'s list, with the decoded image as its size and its `getpixel`: rows
      `for y in range(height)` outside, columns inside. */
  function LoadImage(width: nat, height: nat, getpixel: (nat, nat) -> FB.Rgb): (pixels: seq<ImagePixel>)
    ensures forall i :: 0 <= i < |pixels| ==>
      pixels[i].x < width && pixels[i].y < height && |pixels[i].color| == 6
    decreases height
  {
    if height == 0 then []
    else LoadImage(width, height - 1, getpixel) + Row(width, height - 1, getpixel)
  }

  /** The list has one entry per pixel of the image. */
  lemma {:induction false} LoadImageLength(width: nat, height: nat, getpixel: (nat, nat) -> FB.Rgb)
    ensures |LoadImage(width, height, getpixel)| == width * height
  {
    if height > 0 {
      LoadImageLength(width, height - 1, getpixel);
      assert width * height == width * (height - 1) + width;
    }
  }

  /** The rows above y come first: the list for fewer rows is a prefix of the full list. */
  lemma {:induction false} LoadImagePrefix(width: nat, y: nat, height: nat, getpixel: (nat, nat) -> FB.Rgb)
    requires y <= height
    ensures LoadImage(width, y, getpixel) <= LoadImage(width, height, getpixel)
    decreases height - y
  {
    if y < height {
      LoadImagePrefix(width, y, height - 1, getpixel);
      var upper := LoadImage(width, height - 1, getpixel);
      var all := LoadImage(width, height, getpixel);
      assert all == upper + Row(width, height - 1, getpixel);
      assert upper <= all;
    }
  }

  /** Row y comes right after the rows above it. */
  lemma LoadImageNextRow(width: nat, y: nat, getpixel: (nat, nat) -> FB.Rgb)
    ensures LoadImage(width, y + 1, getpixel) == LoadImage(width, y, getpixel) + Row(width, y, getpixel)
  {
  }

  lemma ConcatIndex<T>(a: seq<T>, b: seq<T>, i: nat)
    requires i < |b|
    ensures |a| + i < |a + b| && (a + b)[|a| + i] == b[i]
  {
  }

  lemma PrefixIndex<T>(a: seq<T>, b: seq<T>, k: nat)
    requires a <= b && k < |a|
    ensures k < |b| && b[k] == a[k]
  {
  }

  /** Pixel (x, y) follows the pixels of the y rows above it. */
  lemma PixelAfterRows(width: nat, height: nat, getpixel: (nat, nat) -> FB.Rgb, x: nat, y: nat)
    requires x < width && y < height
    ensures var k := |LoadImage(width, y, getpixel)| + x;
      && k < |LoadImage(width, height, getpixel)|
      && LoadImage(width, height, getpixel)[k] == ImagePixel(x, y, ColorHex(getpixel(x, y)))
  {
    var above := LoadImage(width, y, getpixel);
    var row := Row(width, y, getpixel);
    LoadImageNextRow(width, y, getpixel);
    ConcatIndex(above, row, x);
    LoadImagePrefix(width, y + 1, height, getpixel);
    PrefixIndex(LoadImage(width, y + 1, getpixel), LoadImage(width, height, getpixel), |above| + x);
  }

  /** The list is row-major: pixel (x, y) sits at index width * y + x. */
  lemma LoadImageRowMajor(width: nat, height: nat, getpixel: (nat, nat) -> FB.Rgb, x: nat, y: nat)
    requires x < width && y < height
    ensures width * y + x < |LoadImage(width, height, getpixel)|
    ensures LoadImage(width, height, getpixel)[width * y + x] == ImagePixel(x, y, ColorHex(getpixel(x, y)))
  {
    PixelAfterRows(width, height, getpixel, x, y);
    LoadImageLength(width, y, getpixel);
  }

  /** The server's reply is not a `SIZE` line Python can unpack into two integers. */
  datatype SizeError = ValueError

  /** `get_screen_size` on the text it received. */
  function GetScreenSize(message: string): (r: Result<(int, int), SizeError>)
    ensures r.Ok? ==> "SIZE " <= Text.Strip(message)
    ensures r.Ok? <==>
      var words := Text.Split(Text.Strip(message));
      && "SIZE " <= Text.Strip(message)
      && |words| == 3
      && Text.PyInt(words[1]).Some? && Text.PyInt(words[2]).Some?
    ensures r.Ok? ==> var words := Text.Split(Text.Strip(message));
      r.value == (Text.PyInt(words[1]).value, Text.PyInt(words[2]).value)
  {
    var m := Text.Strip(message);
    if !("SIZE " <= m) then Err(ValueError)
    else
      var words := Text.Split(m);
      if |words| != 3 then Err(ValueError)
      else
        match (Text.PyInt(words[1]), Text.PyInt(words[2]))
        case (Some(w), Some(h)) => Ok((w, h))
        case _ => Err(ValueError)
  }

  /** The client reads back exactly the size the server's SIZE reply carries. */
  lemma ScreenSizeRoundTrip(width: U16, height: U16)
    ensures GetScreenSize(CC.SendResponse(CC.Response.Size(width, height)).0 + "\n") == Ok((width, height))
  {
    var w := Text.Decimal(width);
    var h := Text.Decimal(height);
    var words := ["SIZE", w, h];
    var line := CC.SendResponse(CC.Response.Size(width, height)).0;
    assert line == Text.JoinSpaced(words);
    assert words[1..][1..] == [h];
    assert Text.JoinSpaced(words[1..]) == w + " " + h;
    assert line == "SIZE " + w + " " + h;
    assert line[|line| - 1] == h[|h| - 1];
    assert Text.IsDigit(line[|line| - 1]);
    Text.StripLine(line, "\n");
    Text.PyIntDecimal(width);
    Text.PyIntDecimal(height);
  }

  /** Replies that do not start with "SIZE " are refused. */
  lemma ScreenSizeRejectsError()
    ensures GetScreenSize("ERROR LOGIN NEEDED\n").Err?
  {
    var e := "ERROR LOGIN NEEDED";
    Text.StripLine(e, "\n");
    assert e[0] != "SIZE "[0];
  }

  /** A SIZE reply with a single number does not unpack into width and height. */
  lemma ScreenSizeRejectsMissingHeight(n: nat)
    ensures GetScreenSize("SIZE " + Text.Decimal(n) + "\n").Err?
  {
    var d := Text.Decimal(n);
    var m := "SIZE " + d;
    assert Text.JoinSpaced(["SIZE", d]) == m;
    assert m[|m| - 1] == d[|d| - 1];
    assert Text.IsDigit(m[|m| - 1]);
    Text.StripLine(m, "\n");
    Text.SplitJoinSpaced(["SIZE", d]);
  }

  /** `max(n, 0)`. */
  function Max0(n: int): nat
  {
    if n > 0 then n else 0
  }

  /** The largest start that keeps an image of size `image` on a screen of size `screen`,
      or 0 when it does not fit. */
  function StartRange(screen: int, image: int): (m: nat)
    ensures image <= screen ==> m + image == screen
  {
    Max0(screen - image)
  }

  /** `random.randint(a, b)`, with the generator's draw as a parameter. */
  function RandInt(a: int, b: int, draw: nat): (r: int)
    requires a <= b
    ensures a <= r <= b
  {
    a + draw % (b - a + 1)
  }

  /** The screen size the server reported and the size of the loaded image. */
  datatype Geometry = Geometry(screenWidth: int, screenHeight: int, imageWidth: int, imageHeight: int)

  /** The image is no larger than the screen. */
  predicate Fits(g: Geometry)
  {
    g.imageWidth <= g.screenWidth && g.imageHeight <= g.screenHeight
  }

  /** `calculate_new_position`, drawing two values of the random stream. */
  function CalculateNewPosition(g: Geometry, drawX: nat, drawY: nat): (p: (int, int))
    ensures 0 <= p.0 <= StartRange(g.screenWidth, g.imageWidth)
    ensures 0 <= p.1 <= StartRange(g.screenHeight, g.imageHeight)
    ensures g.imageWidth <= g.screenWidth ==> p.0 + g.imageWidth <= g.screenWidth
    ensures g.imageHeight <= g.screenHeight ==> p.1 + g.imageHeight <= g.screenHeight
  {
    (RandInt(0, StartRange(g.screenWidth, g.imageWidth), drawX),
     RandInt(0, StartRange(g.screenHeight, g.imageHeight), drawY))
  }

  /** The `pixel_state` dictionary that persists from one slot to the next. */
  datatype PixelState = PixelState(pixelIndex: int, remaining: int, startX: int, startY: int)

  /** The state `main` starts with. */
  const INITIAL_STATE := PixelState(0, 0, 0, 0)

  /** The cursor invariant: a pass over the image is under way, `pixelIndex` pixels of it are
      done and `remaining` are left. */
  predicate Tracking(s: PixelState, imageLength: nat)
  {
    0 <= s.pixelIndex && 0 < s.remaining && s.pixelIndex + s.remaining == imageLength
  }

  /** The start position keeps the whole image on screen. */
  predicate StartOk(s: PixelState, g: Geometry)
  {
    && 0 <= s.startX && s.startX + g.imageWidth <= g.screenWidth
    && 0 <= s.startY && s.startY + g.imageHeight <= g.screenHeight
  }

  /** Every pixel lies inside the image's own width and height. */
  predicate InsideImage(pixels: seq<ImagePixel>, g: Geometry)
  {
    forall j :: 0 <= j < |pixels| ==> pixels[j].x < g.imageWidth && pixels[j].y < g.imageHeight
  }

  /** `draw_pixels`'s position choice, which takes the next two draws of the random stream: the
      state with `remaining` reset to the image length and the new start, and the draws used. */
  function Reposition(index: int, imageLength: nat, g: Geometry, rand: nat -> nat, next: nat)
    : (r: (PixelState, nat))
    ensures r.0 == PixelState(index, imageLength, r.0.startX, r.0.startY) && r.1 == next + 2
    ensures Fits(g) ==> StartOk(r.0, g)
  {
    var (sx, sy) := CalculateNewPosition(g, rand(next), rand(next + 1));
    (PixelState(index, imageLength, sx, sy), next + 2)
  }

  /** The counter updates after one pixel, and the reset to a new position once the pass over
      the image is complete. */
  function Advance(s: PixelState, imageLength: nat, g: Geometry, rand: nat -> nat, next: nat)
    : (r: (PixelState, nat))
    ensures Tracking(s, imageLength) ==> Tracking(r.0, imageLength)
    ensures Fits(g) && StartOk(s, g) ==> StartOk(r.0, g)
  {
    var moved := s.(pixelIndex := s.pixelIndex + 1, remaining := s.remaining - 1);
    if moved.remaining == 0 then Reposition(0, imageLength, g, rand, next) else (moved, next)
  }

  /** A line the client sends during a slot. */
  datatype Command = Px(x: int, y: int, color: string) | Done

  /** Indexing the pixel list raised `IndexError`. */
  datatype DrawError = IndexError

  /** Python's `xs[i]`, which counts negative indices from the end. */
  function PyIndex<T>(xs: seq<T>, i: int): (r: Option<T>)
    ensures r.Some? <==> -|xs| <= i < |xs|
    ensures 0 <= i < |xs| ==> r == Some(xs[i])
    ensures -|xs| <= i < 0 ==> r == Some(xs[|xs| + i])
  {
    if 0 <= i < |xs| then Some(xs[i])
    else if -|xs| <= i < 0 then Some(xs[|xs| + i])
    else None
  }

  /** `0 <= draw_x < screen_width and 0 <= draw_y < screen_height`. */
  predicate OnScreen(x: int, y: int, g: Geometry)
  {
    0 <= x < g.screenWidth && 0 <= y < g.screenHeight
  }

  /** Every line sent is a Px line on screen whose colour is one of the image's. */
  predicate ValidPx(sent: seq<Command>, pixels: seq<ImagePixel>, g: Geometry)
  {
    forall i :: 0 <= i < |sent| ==>
      && sent[i].Px?
      && OnScreen(sent[i].x, sent[i].y, g)
      && exists j :: 0 <= j < |pixels| && pixels[j].color == sent[i].color
  }

  lemma ValidPxAppend(sent: seq<Command>, pixels: seq<ImagePixel>, g: Geometry, j: nat, x: int, y: int)
    requires ValidPx(sent, pixels, g)
    requires j < |pixels| && OnScreen(x, y, g)
    ensures ValidPx(sent + [Px(x, y, pixels[j].color)], pixels, g)
  {
    var sent' := sent + [Px(x, y, pixels[j].color)];
    forall i | 0 <= i < |sent'|
      ensures exists j' :: 0 <= j' < |pixels| && pixels[j'].color == sent'[i].color
    {
      if i == |sent| {
        assert pixels[j].color == sent'[i].color;
      } else {
        assert sent'[i] == sent[i];
      }
    }
  }

  /** The line sent for image pixel p while the image starts at (s.startX, s.startY): a PX line
      at the shifted position when that lies on the screen, nothing otherwise. */
  function ShiftedPixel(p: ImagePixel, s: PixelState, g: Geometry): (line: seq<Command>)
    ensures |line| <= 1
    ensures |line| == 1 <==> OnScreen(s.startX + p.x, s.startY + p.y, g)
    ensures |line| == 1 ==> line[0] == Px(s.startX + p.x, s.startY + p.y, p.color)
  {
    var x := s.startX + p.x;
    var y := s.startY + p.y;
    if OnScreen(x, y, g) then [Px(x, y, p.color)] else []
  }

  /** One iteration of `draw_pixels`' loop: the line for the pixel under the cursor and the
      advanced cursor, or `IndexError` when the cursor is outside the list. */
  function DrawStep(pixels: seq<ImagePixel>, g: Geometry, rand: nat -> nat, s: PixelState, next: nat)
    : (r: Result<(seq<Command>, PixelState, nat), DrawError>)
    ensures r.Err? <==> !(-|pixels| <= s.pixelIndex < |pixels|)
    ensures r.Ok? ==>
      var p := pixels[if s.pixelIndex >= 0 then s.pixelIndex else |pixels| + s.pixelIndex];
      && (OnScreen(s.startX + p.x, s.startY + p.y, g) ==> r.value.0 == [Px(s.startX + p.x, s.startY + p.y, p.color)])
      && (!OnScreen(s.startX + p.x, s.startY + p.y, g) ==> r.value.0 == [])
    ensures r.Ok? && s.remaining != 1 ==>
      r.value.1 == s.(pixelIndex := s.pixelIndex + 1, remaining := s.remaining - 1) && r.value.2 == next
    ensures r.Ok? && s.remaining == 1 ==> (r.value.1, r.value.2) == Reposition(0, |pixels|, g, rand, next)
  {
    match PyIndex(pixels, s.pixelIndex)
    case None => Err(IndexError)
    case Some(p) =>
      var advanced := Advance(s, |pixels|, g, rand, next);
      Ok((ShiftedPixel(p, s, g), advanced.0, advanced.1))
  }

  /** k iterations of the loop from cursor s: the lines sent, then the cursor and draws used
      afterwards, or the error that stopped the loop early. */
  function DrawSteps(pixels: seq<ImagePixel>, g: Geometry, rand: nat -> nat, s: PixelState, next: nat, k: nat)
    : (run: (seq<Command>, Result<(PixelState, nat), DrawError>))
    ensures |run.0| <= k
  {
    if k == 0 then ([], Ok((s, next)))
    else
      var prev := DrawSteps(pixels, g, rand, s, next, k - 1);
      match prev.1
      case Err(_) => prev
      case Ok(cursor) =>
        match DrawStep(pixels, g, rand, cursor.0, cursor.1)
        case Err(e) => (prev.0, Err(e))
        case Ok(step) => (prev.0 + step.0, Ok((step.1, step.2)))
  }

  /** Once an iteration fails, later iterations are never run. */
  lemma {:induction false} DrawStepsStopAtError(pixels: seq<ImagePixel>, g: Geometry, rand: nat -> nat,
                                               s: PixelState, next: nat, j: nat, k: nat)
    requires j <= k && DrawSteps(pixels, g, rand, s, next, j).1.Err?
    ensures DrawSteps(pixels, g, rand, s, next, k) == DrawSteps(pixels, g, rand, s, next, j)
    decreases k
  {
    if j < k {
      DrawStepsStopAtError(pixels, g, rand, s, next, j, k - 1);
    }
  }

  /** One more iteration after k successful ones, when the cursor is inside the list: its
      line is appended and the cursor advances. */
  lemma DrawStepsExtend(pixels: seq<ImagePixel>, g: Geometry, rand: nat -> nat, s0: PixelState, n0: nat,
                        k: nat, sent: seq<Command>, s: PixelState, next: nat, p: ImagePixel)
    requires DrawSteps(pixels, g, rand, s0, n0, k) == (sent, Ok((s, next)))
    requires PyIndex(pixels, s.pixelIndex) == Some(p)
    ensures DrawSteps(pixels, g, rand, s0, n0, k + 1) ==
      (sent + ShiftedPixel(p, s, g), Ok(Advance(s, |pixels|, g, rand, next)))
  {
  }

  /** One more iteration after k successful ones, when the cursor is outside the list: the
      loop stops with `IndexError` and nothing more is sent. */
  lemma DrawStepsFail(pixels: seq<ImagePixel>, g: Geometry, rand: nat -> nat, s0: PixelState, n0: nat,
                      k: nat, sent: seq<Command>, s: PixelState, next: nat)
    requires DrawSteps(pixels, g, rand, s0, n0, k) == (sent, Ok((s, next)))
    requires PyIndex(pixels, s.pixelIndex).None?
    ensures DrawSteps(pixels, g, rand, s0, n0, k + 1) == (sent, Err(IndexError))
  {
  }

  /** Every line of a run is a PX line on screen carrying one of the image's colours. */
  lemma {:induction false} DrawStepsValid(pixels: seq<ImagePixel>, g: Geometry, rand: nat -> nat,
                                          s: PixelState, next: nat, k: nat)
    ensures ValidPx(DrawSteps(pixels, g, rand, s, next, k).0, pixels, g)
    decreases k
  {
    if k > 0 {
      DrawStepsValid(pixels, g, rand, s, next, k - 1);
      var prev := DrawSteps(pixels, g, rand, s, next, k - 1);
      if prev.1.Ok? {
        var cursor := prev.1.value.0;
        var i := cursor.pixelIndex;
        if -|pixels| <= i < |pixels| {
          var j := if i >= 0 then i else |pixels| + i;
          var p := pixels[j];
          var line := ShiftedPixel(p, cursor, g);
          if |line| == 1 {
            ValidPxAppend(prev.0, pixels, g, j, cursor.startX + p.x, cursor.startY + p.y);
            assert prev.0 + line == prev.0 + [Px(cursor.startX + p.x, cursor.startY + p.y, pixels[j].color)];
          } else {
            assert prev.0 + line == prev.0;
          }
        }
      }
    }
  }

  /** From a cursor inside a pass the run never fails and the cursor stays inside a pass; when
      the image fits and the start keeps it on screen, every step sends exactly one line. */
  lemma {:induction false} DrawStepsTracked(pixels: seq<ImagePixel>, g: Geometry, rand: nat -> nat,
                                            s: PixelState, next: nat, k: nat)
    requires Tracking(s, |pixels|)
    ensures var run := DrawSteps(pixels, g, rand, s, next, k);
      run.1.Ok? && Tracking(run.1.value.0, |pixels|)
    ensures var run := DrawSteps(pixels, g, rand, s, next, k);
      Fits(g) && StartOk(s, g) && InsideImage(pixels, g) ==>
        |run.0| == k && run.1.Ok? && StartOk(run.1.value.0, g)
    decreases k
  {
    if k > 0 {
      DrawStepsTracked(pixels, g, rand, s, next, k - 1);
      var prev := DrawSteps(pixels, g, rand, s, next, k - 1);
      var cursor := prev.1.value.0;
      var p := pixels[cursor.pixelIndex];
      DrawStepsExtend(pixels, g, rand, s, next, k - 1, prev.0, cursor, prev.1.value.1, p);
    }
  }

  /** With an empty image, any run of at least one step fails with `IndexError`. */
  lemma DrawStepsEmpty(pixels: seq<ImagePixel>, g: Geometry, rand: nat -> nat, s: PixelState, next: nat, k: nat)
    requires |pixels| == 0 && k > 0
    ensures DrawSteps(pixels, g, rand, s, next, k).1 == Err(IndexError)
  {
    DrawStepsFail(pixels, g, rand, s, next, 0, [], s, next);
    DrawStepsStopAtError(pixels, g, rand, s, next, 1, k);
  }

  /** A step before the last pixel of a pass: its line, and the cursor moves on by one. */
  lemma DrawStepsInside(pixels: seq<ImagePixel>, g: Geometry, rand: nat -> nat, s0: PixelState, n0: nat,
                        k: nat, sent: seq<Command>, cur: PixelState)
    requires DrawSteps(pixels, g, rand, s0, n0, k) == (sent, Ok((cur, n0)))
    requires 0 <= cur.pixelIndex < |pixels| && cur.remaining > 1
    requires cur.startX == s0.startX && cur.startY == s0.startY
    ensures DrawSteps(pixels, g, rand, s0, n0, k + 1) ==
      (sent + ShiftedPixel(pixels[cur.pixelIndex], s0, g),
       Ok((cur.(pixelIndex := cur.pixelIndex + 1, remaining := cur.remaining - 1), n0)))
  {
    var p := pixels[cur.pixelIndex];
    DrawStepsExtend(pixels, g, rand, s0, n0, k, sent, cur, n0, p);
    assert ShiftedPixel(p, cur, g) == ShiftedPixel(p, s0, g);
  }

  /** The step at the last pixel of a pass: its line, then a new position and a fresh pass. */
  lemma DrawStepsLast(pixels: seq<ImagePixel>, g: Geometry, rand: nat -> nat, s0: PixelState, n0: nat,
                      k: nat, sent: seq<Command>, cur: PixelState)
    requires DrawSteps(pixels, g, rand, s0, n0, k) == (sent, Ok((cur, n0)))
    requires 0 < |pixels| && cur.remaining == 1 && cur.pixelIndex == |pixels| - 1
    requires cur.startX == s0.startX && cur.startY == s0.startY
    ensures DrawSteps(pixels, g, rand, s0, n0, k + 1) ==
      (sent + ShiftedPixel(pixels[|pixels| - 1], s0, g), Ok(Reposition(0, |pixels|, g, rand, n0)))
  {
    var p := pixels[|pixels| - 1];
    DrawStepsExtend(pixels, g, rand, s0, n0, k, sent, cur, n0, p);
    assert ShiftedPixel(p, cur, g) == ShiftedPixel(p, s0, g);
  }

  /** The lines for the image pixels lo .. hi-1 of one pass drawn at the start of s. */
  function PassLines(pixels: seq<ImagePixel>, g: Geometry, s: PixelState, lo: nat, hi: nat): seq<Command>
    requires lo <= hi <= |pixels|
    decreases hi
  {
    if hi <= lo then [] else PassLines(pixels, g, s, lo, hi - 1) + ShiftedPixel(pixels[hi - 1], s, g)
  }

  lemma PassLinesSnoc(pixels: seq<ImagePixel>, g: Geometry, s: PixelState, lo: nat, hi: nat)
    requires lo < hi <= |pixels|
    ensures PassLines(pixels, g, s, lo, hi) == PassLines(pixels, g, s, lo, hi - 1) + ShiftedPixel(pixels[hi - 1], s, g)
  {
  }

  /** Within a pass the cursor walks the list in order: k < remaining iterations send the
      on-screen pixels pixelIndex .. pixelIndex+k-1 at the current start, move the cursor k
      places, and take no new position (no random draws). */
  lemma {:induction false} DrawWithinPass(pixels: seq<ImagePixel>, g: Geometry, rand: nat -> nat,
                                         s: PixelState, next: nat, k: nat)
    requires Tracking(s, |pixels|) && k < s.remaining
    ensures DrawSteps(pixels, g, rand, s, next, k) ==
      (PassLines(pixels, g, s, s.pixelIndex, s.pixelIndex + k),
       Ok((s.(pixelIndex := s.pixelIndex + k, remaining := s.remaining - k), next)))
  {
    if k > 0 {
      var cur := s.(pixelIndex := s.pixelIndex + k - 1, remaining := s.remaining - k + 1);
      var before := PassLines(pixels, g, s, s.pixelIndex, cur.pixelIndex);
      assert DrawSteps(pixels, g, rand, s, next, k - 1) == (before, Ok((cur, next))) by {
        DrawWithinPass(pixels, g, rand, s, next, k - 1);
      }
      DrawStepsInside(pixels, g, rand, s, next, k - 1, before, cur);
      PassLinesSnoc(pixels, g, s, s.pixelIndex, s.pixelIndex + k);
    }
  }

  /** Finishing a pass: after `remaining` iterations every remaining pixel has been handled
      at the same start, the cursor is back at 0 for a full pass, and only then is a new
      position drawn. */
  lemma DrawCompletesPass(pixels: seq<ImagePixel>, g: Geometry, rand: nat -> nat, s: PixelState, next: nat)
    requires Tracking(s, |pixels|)
    ensures DrawSteps(pixels, g, rand, s, next, s.remaining) ==
      (PassLines(pixels, g, s, s.pixelIndex, |pixels|), Ok(Reposition(0, |pixels|, g, rand, next)))
  {
    var k := s.remaining - 1;
    var idx := s.pixelIndex + k;
    assert idx == |pixels| - 1;
    var before := PassLines(pixels, g, s, s.pixelIndex, idx);
    var cur := s.(pixelIndex := idx, remaining := 1);
    assert DrawSteps(pixels, g, rand, s, next, k) == (before, Ok((cur, next))) by {
      DrawWithinPass(pixels, g, rand, s, next, k);
    }
    DrawStepsLast(pixels, g, rand, s, next, k, before, cur);
    PassLinesSnoc(pixels, g, s, s.pixelIndex, |pixels|);
  }

  /** The cursor `draw_pixels` starts from: a pass under way is continued; with nothing
      remaining (the first call) a pass starts at a new position. */
  function EnterSlot(pixels: seq<ImagePixel>, g: Geometry, state: PixelState, rand: nat -> nat, drawn: nat)
    : (r: (PixelState, nat))
    ensures state.remaining != 0 ==> r == (state, drawn)
    ensures state.remaining == 0 ==>
      && r.0.pixelIndex == state.pixelIndex && r.0.remaining == |pixels| && r.1 == drawn + 2
      && (Fits(g) ==> StartOk(r.0, g))
  {
    if state.remaining == 0 then Reposition(state.pixelIndex, |pixels|, g, rand, drawn)
    else (state, drawn)
  }

  /** `draw_pixels` for one slot. The clock is replaced by `budget`, the number of loop
      iterations that start before the duration has elapsed; `rand` is the stream of random
      draws, of which the first `drawn` were used. Returns the lines sent, then the cursor state
      and the number of draws used so far, or the `IndexError` that aborts the slot. The lines
      are those of min(pixel_count, budget) loop iterations from the entry cursor, then DONE. */
  method DrawPixels(pixels: seq<ImagePixel>, pixelCount: int, budget: nat, g: Geometry,
                    state: PixelState, rand: nat -> nat, drawn: nat)
    returns (sent: seq<Command>, r: Result<(PixelState, nat), DrawError>)
    ensures var entry := EnterSlot(pixels, g, state, rand, drawn);
      var k := if Max0(pixelCount) < budget then Max0(pixelCount) else budget;
      var run := DrawSteps(pixels, g, rand, entry.0, entry.1, k);
      && r == run.1
      && sent == if r.Ok? then run.0 + [Done] else run.0
    ensures r.Ok? ==> |sent| > 0 && sent[|sent| - 1] == Done && ValidPx(sent[..|sent| - 1], pixels, g)
    ensures r.Err? ==> ValidPx(sent, pixels, g)
    ensures |sent| <= Max0(pixelCount) + 1 && |sent| <= budget + 1
    ensures |pixels| == 0 && pixelCount > 0 && budget > 0 ==> r.Err?
    ensures |pixels| > 0 && (state == INITIAL_STATE || Tracking(state, |pixels|)) ==>
      r.Ok? && Tracking(r.value.0, |pixels|)
    ensures && |pixels| > 0 && Fits(g) && InsideImage(pixels, g)
            && (state == INITIAL_STATE || (Tracking(state, |pixels|) && StartOk(state, g)))
            ==> |sent| == (if Max0(pixelCount) < budget then Max0(pixelCount) else budget) + 1
  {
    var entry := EnterSlot(pixels, g, state, rand, drawn);
    var s, next := entry.0, entry.1;
    ghost var k := if Max0(pixelCount) < budget then Max0(pixelCount) else budget;
    var count := pixelCount;
    var steps: nat := 0;
    sent := [];
    while count > 0 && steps < budget
      invariant steps <= k
      invariant count == pixelCount - steps
      invariant |pixels| == 0 ==> steps == 0
      invariant DrawSteps(pixels, g, rand, entry.0, entry.1, steps) == (sent, Ok((s, next)))
    {
      match PyIndex(pixels, s.pixelIndex)
      case None =>
        DrawStepsFail(pixels, g, rand, entry.0, entry.1, steps, sent, s, next);
        DrawStepsStopAtError(pixels, g, rand, entry.0, entry.1, steps + 1, k);
        DrawStepsValid(pixels, g, rand, entry.0, entry.1, k);
        if |pixels| > 0 && (state == INITIAL_STATE || Tracking(state, |pixels|)) {
          DrawStepsTracked(pixels, g, rand, entry.0, entry.1, k);
        }
        r := Err(IndexError);
        return;
      case Some(p) =>
        DrawStepsExtend(pixels, g, rand, entry.0, entry.1, steps, sent, s, next, p);
        sent := sent + ShiftedPixel(p, s, g);
        count := count - 1;
        steps := steps + 1;
        var advanced := Advance(s, |pixels|, g, rand, next);
        s, next := advanced.0, advanced.1;
    }
    assert steps == k;
    DrawStepsValid(pixels, g, rand, entry.0, entry.1, k);
    if |pixels| > 0 && (state == INITIAL_STATE || Tracking(state, |pixels|)) {
      DrawStepsTracked(pixels, g, rand, entry.0, entry.1, k);
    }
    r := Ok((s, next));
    sent := sent + [Done];
  }
}

=== FILE: statistics.dfy ===
/** Per-user statistics shown on the web page: the set of registered users and the update
    message that lists them. */
module Statistics {
  import opened Common

  /** The per-user record; it carries no data yet. */
  datatype UserStats = UserStats

  type Stats = map<string, UserStats>

  /** One entry of a `UserStatisticsUpdate`. Both figures are fixed placeholders. */
  datatype UserStatistics = UserStatistics(username: string, pixelsPerS: nat, averageResponseTimeMs: nat)

  const PLACEHOLDER_PIXELS_PER_S: nat := 1000
  const PLACEHOLDER_RESPONSE_TIME_MS: nat := 42

  /** The websocket channel refused the message. */
  datatype Error = UpdateNotSent

  /** An update that lists every registered user exactly once, with the placeholder figures. */
  predicate ListsExactly(update: seq<UserStatistics>, stats: Stats)
  {
    && |update| == |stats.Keys|
    && (forall i :: 0 <= i < |update| ==>
          && update[i].username in stats
          && update[i].pixelsPerS == PLACEHOLDER_PIXELS_PER_S
          && update[i].averageResponseTimeMs == PLACEHOLDER_RESPONSE_TIME_MS)
    && (forall i, j :: 0 <= i < j < |update| ==> update[i].username != update[j].username)
    && (forall u :: u in stats ==> exists i :: 0 <= i < |update| && update[i].username == u)
  }

  /** `send_update`'s message: one entry per user, in the map's iteration order, which the
      hash map leaves unspecified; each step takes any user not yet listed. */
  method BuildUpdate(stats: Stats) returns (update: seq<UserStatistics>)
    ensures ListsExactly(update, stats)
  {
    update := [];
    var left := stats.Keys;
    while left != {}
      invariant left <= stats.Keys
      invariant |update| + |left| == |stats.Keys|
      invariant forall i :: 0 <= i < |update| ==>
        && update[i].username in stats && update[i].username !in left
        && update[i].pixelsPerS == PLACEHOLDER_PIXELS_PER_S
        && update[i].averageResponseTimeMs == PLACEHOLDER_RESPONSE_TIME_MS
      invariant forall i, j :: 0 <= i < j < |update| ==> update[i].username != update[j].username
      invariant forall u :: u in stats && u !in left ==>
        exists i :: 0 <= i < |update| && update[i].username == u
      decreases |left|
    {
      var u :| u in left;
      var listed := update;
      update := update + [UserStatistics(u, PLACEHOLDER_PIXELS_PER_S, PLACEHOLDER_RESPONSE_TIME_MS)];
      forall v | v in stats && v !in left - {u}
        ensures exists i :: 0 <= i < |update| && update[i].username == v
      {
        if v == u {
          assert update[|listed|].username == v;
        } else {
          var i :| 0 <= i < |listed| && listed[i].username == v;
          assert update[i].username == v;
        }
      }
      left := left - {u};
    }
  }

  /** `send_update`: build the message and hand it to the websocket channel; `channelOpen` says
      whether the channel accepts it. */
  method SendUpdate(stats: Stats, channelOpen: bool)
    returns (update: seq<UserStatistics>, r: Result<(), Error>)
    ensures ListsExactly(update, stats)
    ensures r.Ok? <==> channelOpen
  {
    update := BuildUpdate(stats);
    r := if channelOpen then Ok(()) else Err(UpdateNotSent);
  }

  /** The map after `register_user`: an entry is added only for a new name. */
  function Registered(stats: Stats, username: string): (r: Stats)
    ensures r.Keys == stats.Keys + {username}
    ensures forall u :: u in stats ==> r[u] == stats[u]
  {
    if username in stats then stats else stats[username := UserStats]
  }

  /** The map after `unregister_user`. */
  function Unregistered(stats: Stats, username: string): (r: Stats)
    ensures r.Keys == stats.Keys - {username}
    ensures forall u :: u in r ==> r[u] == stats[u]
  {
    stats - {username}
  }

  /** Registering twice is registering once; unregistering undoes registering a new name. */
  lemma RegisterRoundTrip(stats: Stats, username: string)
    ensures Registered(Registered(stats, username), username) == Registered(stats, username)
    ensures username !in stats ==> Unregistered(Registered(stats, username), username) == stats
    ensures Registered(Unregistered(stats, username), username).Keys == stats.Keys + {username}
  {
  }

  /** `register_user`: update the map, then send the full list; the map is updated even when
      the send fails. */
  method RegisterUser(stats: Stats, username: string, channelOpen: bool)
    returns (stats': Stats, update: seq<UserStatistics>, r: Result<(), Error>)
    ensures stats' == Registered(stats, username)
    ensures ListsExactly(update, stats')
    ensures exists i :: 0 <= i < |update| && update[i].username == username
    ensures r.Ok? <==> channelOpen
  {
    stats' := Registered(stats, username);
    update, r := SendUpdate(stats', channelOpen);
  }

  /** `unregister_user`: remove the entry, then send the full list. */
  method UnregisterUser(stats: Stats, username: string, channelOpen: bool)
    returns (stats': Stats, update: seq<UserStatistics>, r: Result<(), Error>)
    ensures stats' == Unregistered(stats, username)
    ensures ListsExactly(update, stats')
    ensures forall i :: 0 <= i < |update| ==> update[i].username != username
    ensures r.Ok? <==> channelOpen
  {
    stats' := Unregistered(stats, username);
    update, r := SendUpdate(stats', channelOpen);
  }
}

=== FILE: text.dfy ===
/** Text formatting and parsing used by the line protocols: Rust's `{}` and `{:0Nx}`
    formatting of integers, and Python's `str.split`, `str.strip` and `int`. */
module Text {
  import opened Common

  predicate IsDigit(c: char) { '0' <= c <= '9' }

  predicate IsDigits(s: string) { forall i :: 0 <= i < |s| ==> IsDigit(s[i]) }

  function DigitValue(c: char): nat
    requires IsDigit(c)
  {
    c as int - '0' as int
  }

  function DigitChar(d: nat): (c: char)
    requires d < 10
    ensures IsDigit(c) && DigitValue(c) == d
  {
    (d + '0' as int) as char
  }

  /** The value of a string of decimal digits, most significant digit first. */
  function DecimalValue(s: string): nat
    requires IsDigits(s)
  {
    if |s| == 0 then 0 else 10 * DecimalValue(s[..|s| - 1]) + DigitValue(s[|s| - 1])
  }

  /** Rust's `{}` and Python's `str` of a non-negative integer: digits without leading zeros. */
  function Decimal(n: nat): (s: string)
    ensures |s| >= 1 && IsDigits(s)
    ensures DecimalValue(s) == n
    ensures s[0] == '0' ==> n == 0
  {
    if n < 10 then [DigitChar(n)]
    else
      var s := Decimal(n / 10) + [DigitChar(n % 10)];
      assert s[..|s| - 1] == Decimal(n / 10);
      s
  }

  // ----- lowercase hexadecimal, Rust's `{:x}` and Python's `{:x}` -----

  predicate IsHexDigit(c: char) { '0' <= c <= '9' || 'a' <= c <= 'f' }

  predicate IsHexDigits(s: string) { forall i :: 0 <= i < |s| ==> IsHexDigit(s[i]) }

  function HexDigitValue(c: char): nat
    requires IsHexDigit(c)
  {
    if '0' <= c <= '9' then c as int - '0' as int else c as int - 'a' as int + 10
  }

  function HexDigitChar(d: nat): (c: char)
    requires d < 16
    ensures IsHexDigit(c) && HexDigitValue(c) == d
  {
    if d < 10 then (d + '0' as int) as char else (d - 10 + 'a' as int) as char
  }

  /** The value of a string of lowercase hex digits, most significant digit first. */
  function HexValue(s: string): nat
    requires IsHexDigits(s)
  {
    if |s| == 0 then 0 else 16 * HexValue(s[..|s| - 1]) + HexDigitValue(s[|s| - 1])
  }

  /** The shortest lowercase hex spelling of n. */
  function HexDigits(n: nat): (s: string)
    ensures |s| >= 1 && IsHexDigits(s)
    ensures HexValue(s) == n
    ensures s[0] == '0' ==> n == 0
    ensures n < 0x10 ==> |s| == 1
    ensures n < 0x100 ==> |s| <= 2
  {
    if n < 16 then [HexDigitChar(n)]
    else
      var s := HexDigits(n / 16) + [HexDigitChar(n % 16)];
      assert s[..|s| - 1] == HexDigits(n / 16);
      s
  }

  function Zeros(k: nat): (s: string)
    ensures |s| == k && forall i :: 0 <= i < k ==> s[i] == '0'
  {
    seq(k, _ => '0')
  }

  /** Leading zeros do not change the value of a hex string. */
  lemma {:induction false} HexValueLeadingZeros(k: nat, t: string)
    requires IsHexDigits(t)
    ensures IsHexDigits(Zeros(k) + t)
    ensures HexValue(Zeros(k) + t) == HexValue(t)
  {
    var s := Zeros(k) + t;
    if |t| == 0 {
      assert s == Zeros(k);
      ZerosValue(k);
    } else {
      var t' := t[..|t| - 1];
      assert s[..|s| - 1] == Zeros(k) + t';
      HexValueLeadingZeros(k, t');
    }
  }

  lemma {:induction false} ZerosValue(k: nat)
    ensures IsHexDigits(Zeros(k)) && HexValue(Zeros(k)) == 0
  {
    if k > 0 {
      assert Zeros(k)[..k - 1] == Zeros(k - 1);
      ZerosValue(k - 1);
    }
  }

  /** `{:0width$x}`: lowercase hex, zero-padded on the left to at least `width` characters. */
  function Hex(n: nat, width: nat): (s: string)
    ensures IsHexDigits(s) && HexValue(s) == n
    ensures |s| >= width
    ensures |s| > width ==> s[0] != '0' || s == "0"
    ensures n < 0x100 && 2 <= width ==> |s| == width
  {
    var digits := HexDigits(n);
    var pad := if |digits| < width then width - |digits| else 0;
    HexValueLeadingZeros(pad, digits);
    Zeros(pad) + digits
  }

  // ----- Python's whitespace, `str.strip`, `str.split` and `int` -----

  /** The characters Python's `str.isspace` accepts. */
  predicate IsSpace(c: char)
  {
    var n := c as int;
    (9 <= n <= 13) || (28 <= n <= 32) || n == 0x85 || n == 0xA0 || n == 0x1680
    || (0x2000 <= n <= 0x200A) || n == 0x2028 || n == 0x2029 || n == 0x202F
    || n == 0x205F || n == 0x3000
  }

  predicate NoSpace(s: string) { forall i :: 0 <= i < |s| ==> !IsSpace(s[i]) }

  /** A maximal run of non-space characters, which is what `str.split()` returns. */
  predicate IsWord(s: string) { |s| > 0 && NoSpace(s) }

  /** A decimal numeral is a single word. */
  lemma DecimalIsWord(n: nat)
    ensures IsWord(Decimal(n))
  {
    var d := Decimal(n);
    assert forall i :: 0 <= i < |d| ==> IsDigit(d[i]);
  }

  /** A hexadecimal numeral padded to a positive width is a single word. */
  lemma HexIsWord(n: nat, width: nat)
    requires 0 < width
    ensures IsWord(Hex(n, width))
  {
    var h := Hex(n, width);
    assert forall i :: 0 <= i < |h| ==> IsHexDigit(h[i]);
  }

  function TrimStart(s: string): (r: string)
    ensures |r| <= |s| && r == s[|s| - |r|..]
    ensures |r| > 0 ==> !IsSpace(r[0])
    ensures forall i :: 0 <= i < |s| - |r| ==> IsSpace(s[i])
  {
    if |s| > 0 && IsSpace(s[0]) then TrimStart(s[1..]) else s
  }

  function TrimEnd(s: string): (r: string)
    ensures |r| <= |s| && r == s[..|r|]
    ensures |r| > 0 ==> !IsSpace(r[|r| - 1])
    ensures forall i :: |r| <= i < |s| ==> IsSpace(s[i])
  {
    if |s| > 0 && IsSpace(s[|s| - 1]) then TrimEnd(s[..|s| - 1]) else s
  }

  /** `str.strip()`: drop leading and trailing whitespace. */
  function Strip(s: string): (r: string)
    ensures |r| > 0 ==> !IsSpace(r[0]) && !IsSpace(r[|r| - 1])
    ensures exists a :: StrippedAt(s, r, a)
  {
    var t := TrimStart(s);
    var r := TrimEnd(t);
    assert StrippedAt(s, r, |s| - |t|);
    r
  }

  /** r is the slice of s starting at a, and everything of s around it is whitespace. */
  predicate StrippedAt(s: string, r: string, a: int)
  {
    && 0 <= a <= a + |r| <= |s|
    && r == s[a..a + |r|]
    && (forall i :: 0 <= i < a ==> IsSpace(s[i]))
    && (forall i :: a + |r| <= i < |s| ==> IsSpace(s[i]))
  }

  /** Stripping a line whose ends are not whitespace, plus any whitespace tail, gives the line. */
  lemma StripLine(s: string, tail: string)
    requires |s| > 0 && !IsSpace(s[0]) && !IsSpace(s[|s| - 1])
    requires forall i :: 0 <= i < |tail| ==> IsSpace(tail[i])
    ensures Strip(s + tail) == s
  {
    var u := s + tail;
    assert TrimStart(u) == u;
    var r := TrimEnd(u);
    assert u[|s| - 1] == s[|s| - 1];
    assert |r| >= |s|;
    assert |r| <= |s|;
    assert r == u[..|s|] == s;
  }

  /** The length of the leading run of non-space characters. */
  function WordEnd(s: string): (k: nat)
    ensures k <= |s|
    ensures NoSpace(s[..k])
    ensures k < |s| ==> IsSpace(s[k])
  {
    if |s| == 0 || IsSpace(s[0]) then 0
    else
      var k := 1 + WordEnd(s[1..]);
      assert s[..k] == [s[0]] + s[1..][..k - 1];
      k
  }

  /** The non-space characters of s, in order. */
  function NonSpace(s: string): string
  {
    if |s| == 0 then "" else (if IsSpace(s[0]) then "" else [s[0]]) + NonSpace(s[1..])
  }

  /** The words of a list written one after another. */
  function Concat(words: seq<string>): string
  {
    if |words| == 0 then "" else words[0] + Concat(words[1..])
  }

  /** A word of s begins at position i: a non-space character at the start or after a space. */
  predicate StartsWord(s: string, i: nat)
    requires i < |s|
  {
    !IsSpace(s[i]) && (i == 0 || IsSpace(s[i - 1]))
  }

  /** The number of word beginnings at positions i .. |s|-1. */
  function WordStartsFrom(s: string, i: nat): nat
    requires i <= |s|
    decreases |s| - i
  {
    if i == |s| then 0 else (if StartsWord(s, i) then 1 else 0) + WordStartsFrom(s, i + 1)
  }

  lemma {:induction false} NonSpaceAppend(a: string, b: string)
    ensures NonSpace(a + b) == NonSpace(a) + NonSpace(b)
    decreases |a|
  {
    if |a| == 0 {
      assert a + b == b;
    } else {
      assert (a + b)[1..] == a[1..] + b;
      NonSpaceAppend(a[1..], b);
    }
  }

  lemma {:induction false} NonSpaceOfWord(w: string)
    requires NoSpace(w)
    ensures NonSpace(w) == w
    decreases |w|
  {
    if |w| > 0 {
      NonSpaceOfWord(w[1..]);
      assert w == [w[0]] + w[1..];
    }
  }

  /** Past the first position, word beginnings of a suffix are those of the whole string. */
  lemma {:induction false} WordStartsShift(s: string, m: nat, j: nat)
    requires 1 <= j && m + j <= |s|
    ensures WordStartsFrom(s, m + j) == WordStartsFrom(s[m..], j)
    decreases |s| - (m + j)
  {
    if m + j < |s| {
      assert s[m..][j] == s[m + j] && s[m..][j - 1] == s[m + j - 1];
      WordStartsShift(s, m, j + 1);
    }
  }

  /** After a space, or at a space or the end, the count does not depend on what came before. */
  lemma WordStartsAtBoundary(s: string, m: nat)
    requires 0 < m <= |s|
    requires IsSpace(s[m - 1]) || m == |s| || IsSpace(s[m])
    ensures WordStartsFrom(s, m) == WordStartsFrom(s[m..], 0)
  {
    if m < |s| {
      assert s[m..][0] == s[m];
      WordStartsShift(s, m, 1);
    }
  }

  /** Inside a word no other word begins. */
  lemma {:induction false} NoStartsInWord(s: string, i: nat, k: nat)
    requires 1 <= i <= k <= |s| && NoSpace(s[..k])
    ensures WordStartsFrom(s, i) == WordStartsFrom(s, k)
    decreases k - i
  {
    if i < k {
      assert s[..k][i - 1] == s[i - 1];
      NoStartsInWord(s, i + 1, k);
    }
  }

  /** `str.split()` with no separator. Its words hold exactly the non-space characters, and there
      is one word per word beginning; `SplitRuns` shows each word is the maximal run there. */
  function Split(s: string): (words: seq<string>)
    ensures forall i :: 0 <= i < |words| ==> IsWord(words[i])
    ensures Concat(words) == NonSpace(s)
    ensures |words| == WordStartsFrom(s, 0)
    decreases |s|
  {
    if |s| == 0 then []
    else if IsSpace(s[0]) then
      WordStartsAtBoundary(s, 1);
      Split(s[1..])
    else
      var k := WordEnd(s);
      var w := s[..k];
      var rest := Split(s[k..]);
      assert s == w + s[k..];
      NonSpaceAppend(w, s[k..]);
      NonSpaceOfWord(w);
      assert ([w] + rest)[1..] == rest;
      NoStartsInWord(s, 1, k);
      WordStartsAtBoundary(s, k);
      [w] + rest
  }

  /** The maximal run of non-space characters starting at a. */
  function RunAt(s: string, a: nat): (w: string)
    requires a <= |s|
    ensures a + |w| <= |s| && w == s[a..a + |w|] && NoSpace(w)
    ensures a + |w| == |s| || IsSpace(s[a + |w|])
  {
    var k := WordEnd(s[a..]);
    assert s[a..][..k] == s[a..a + k];
    s[a..a + k]
  }

  /** A leading space is dropped. */
  lemma SplitSpaceStep(s: string)
    requires |s| > 0 && IsSpace(s[0])
    ensures Split(s) == Split(s[1..])
  {
  }

  /** A leading word becomes the first word. */
  lemma SplitWordStep(s: string)
    requires |s| > 0 && !IsSpace(s[0])
    ensures Split(s) == [RunAt(s, 0)] + Split(s[WordEnd(s)..])
  {
    assert s[0..] == s;
  }

  /** Moving to the suffix from m keeps a later word beginning, its count and its run. */
  lemma ShiftStart(s: string, m: nat, a: nat)
    requires 0 < m <= a < |s| && StartsWord(s, a)
    requires a > m || IsSpace(s[m - 1])
    ensures StartsWord(s[m..], a - m)
    ensures WordStartsFrom(s, a) == WordStartsFrom(s[m..], a - m)
    ensures RunAt(s, a) == RunAt(s[m..], a - m)
  {
    if a == m {
      WordStartsAtBoundary(s, m);
    } else {
      WordStartsShift(s, m, a - m);
    }
    assert s[m..][a - m..] == s[a..];
  }

  /** `r` is the word n places from the end of `words`. */
  predicate NthFromEnd(words: seq<string>, n: int, r: string)
  {
    0 <= |words| - n < |words| && words[|words| - n] == r
  }

  /** Putting a word in front keeps the words counted from the end. */
  lemma NthFromEndCons(w: string, rest: seq<string>, n: int, r: string)
    requires NthFromEnd(rest, n, r)
    ensures NthFromEnd([w] + rest, n, r)
  {
    assert ([w] + rest)[|rest| + 1 - n] == rest[|rest| - n];
  }

  /** The run starting at a is word number |words| - WordStartsFrom(s, a) of `Split(s)`. */
  predicate RunIsWord(s: string, a: nat)
    requires a <= |s|
  {
    NthFromEnd(Split(s), WordStartsFrom(s, a), RunAt(s, a))
  }

  /** A leading space changes neither the words nor the index of the run at a. */
  lemma RunIsWordAfterSpace(s: string, a: nat)
    requires 0 < a < |s| && StartsWord(s, a) && IsSpace(s[0])
    requires RunIsWord(s[1..], a - 1)
    ensures RunIsWord(s, a)
  {
    var t := s[1..];
    assert Split(s) == Split(t) by { SplitSpaceStep(s); }
    assert WordStartsFrom(s, a) == WordStartsFrom(t, a - 1) && RunAt(s, a) == RunAt(t, a - 1) by {
      ShiftStart(s, 1, a);
    }
  }

  /** After a leading word of length k, the run at a is one index further on than in s[k..]. */
  lemma RunIsWordAfterWord(s: string, a: nat, k: nat)
    requires 0 < a < |s| && StartsWord(s, a) && !IsSpace(s[0])
    requires k == WordEnd(s) && k < a
    requires RunIsWord(s[k..], a - k)
    ensures RunIsWord(s, a)
  {
    var t := s[k..];
    assert Split(s) == [RunAt(s, 0)] + Split(t) by { SplitWordStep(s); }
    assert WordStartsFrom(s, a) == WordStartsFrom(t, a - k) && RunAt(s, a) == RunAt(t, a - k) by {
      ShiftStart(s, k, a);
    }
    NthFromEndCons(RunAt(s, 0), Split(t), WordStartsFrom(t, a - k), RunAt(t, a - k));
  }

  /** The words are the maximal runs: for every place a where a word begins, the run starting
      there is a word, at the index given by the number of word beginnings from a onwards. */
  lemma {:induction false} SplitRuns(s: string, a: nat)
    requires a < |s| && StartsWord(s, a)
    ensures RunIsWord(s, a)
    decreases |s|
  {
    if IsSpace(s[0]) {
      assert RunIsWord(s[1..], a - 1) by {
        assert s[1..][a - 1] == s[a] && (a == 1 || s[1..][a - 2] == s[a - 1]);
        SplitRuns(s[1..], a - 1);
      }
      RunIsWordAfterSpace(s, a);
    } else if a > 0 {
      var k := WordEnd(s);
      assert a > k;
      assert RunIsWord(s[k..], a - k) by {
        assert s[k..][a - k] == s[a] && s[k..][a - k - 1] == s[a - 1];
        SplitRuns(s[k..], a - k);
      }
      RunIsWordAfterWord(s, a, k);
    } else {
      SplitWordStep(s);
    }
  }

  /** Words joined by single spaces, as `format!("{a} {b}")` writes them. */
  function JoinSpaced(words: seq<string>): string
  {
    if |words| == 0 then ""
    else if |words| == 1 then words[0]
    else words[0] + " " + JoinSpaced(words[1..])
  }

  /** The join of a longer list is its first word, a space and the join of the rest. */
  lemma JoinSpacedCons(w: string, rest: seq<string>)
    requires |rest| > 0
    ensures JoinSpaced([w] + rest) == w + " " + JoinSpaced(rest)
  {
    assert ([w] + rest)[1..] == rest;
  }

  /** The joins of two, three and four words written out. */
  lemma JoinSpaced2(a: string, b: string)
    ensures JoinSpaced([a, b]) == a + " " + b
  {
    assert [a, b] == [a] + [b];
    JoinSpacedCons(a, [b]);
  }

  lemma JoinSpaced3(a: string, b: string, c: string)
    ensures JoinSpaced([a, b, c]) == a + " " + b + " " + c
  {
    JoinSpaced2(b, c);
    assert [a, b, c] == [a] + [b, c];
    JoinSpacedCons(a, [b, c]);
  }

  lemma JoinSpaced4(a: string, b: string, c: string, d: string)
    ensures JoinSpaced([a, b, c, d]) == a + " " + b + " " + c + " " + d
  {
    JoinSpaced3(b, c, d);
    assert [a, b, c, d] == [a] + [b, c, d];
    JoinSpacedCons(a, [b, c, d]);
  }

  lemma {:induction false} WordEndOfWord(w: string, rest: string)
    requires IsWord(w)
    requires |rest| == 0 || IsSpace(rest[0])
    ensures WordEnd(w + rest) == |w|
    decreases |w|
  {
    var s := w + rest;
    if |w| > 1 {
      assert s[1..] == w[1..] + rest;
      WordEndOfWord(w[1..], rest);
    } else {
      assert s[1..] == rest;
    }
  }

  /** Splitting undoes joining with single spaces, for words without whitespace. */
  lemma {:induction false} SplitJoinSpaced(words: seq<string>)
    requires forall i :: 0 <= i < |words| ==> IsWord(words[i])
    ensures Split(JoinSpaced(words)) == words
  {
    if |words| == 1 {
      var w := words[0];
      WordEndOfWord(w, "");
      assert w + "" == w;
      assert w[|w|..] == "";
    } else if |words| > 1 {
      var w := words[0];
      var rest := " " + JoinSpaced(words[1..]);
      var s := w + rest;
      assert JoinSpaced(words) == s;
      WordEndOfWord(w, rest);
      assert s[..|w|] == w && s[|w|..] == rest;
      assert rest[1..] == JoinSpaced(words[1..]);
      SplitJoinSpaced(words[1..]);
    }
  }

  predicate IsDigitOrUnderscore(c: char) { IsDigit(c) || c == '_' }

  /** Python's decimal literal body: digits, with single underscores only between digits. */
  predicate IsPyDigits(s: string)
  {
    && |s| > 0
    && IsDigit(s[0]) && IsDigit(s[|s| - 1])
    && (forall i :: 0 <= i < |s| ==> IsDigitOrUnderscore(s[i]))
    && (forall i :: 0 <= i < |s| - 1 ==> !(s[i] == '_' && s[i + 1] == '_'))
  }

  function DropUnderscores(s: string): (r: string)
    requires forall i :: 0 <= i < |s| ==> IsDigitOrUnderscore(s[i])
    ensures IsDigits(r)
    ensures IsDigits(s) ==> r == s
  {
    if |s| == 0 then ""
    else if s[0] == '_' then DropUnderscores(s[1..])
    else
      var r := [s[0]] + DropUnderscores(s[1..]);
      assert IsDigitOrUnderscore(s[0]);
      r
  }

  /** Python's `int(token)` in base 10 on a token without surrounding whitespace;
      `None` is the `ValueError` it raises. */
  function PyInt(token: string): (r: Option<int>)
    ensures r.Some? <==>
      || IsPyDigits(token)
      || (|token| > 1 && (token[0] == '-' || token[0] == '+') && IsPyDigits(token[1..]))
    ensures r.Some? ==>
      && |token| > 0
      && (IsDigit(token[0]) || token[0] == '-' || token[0] == '+')
      && IsDigit(token[|token| - 1])
      && (forall i :: 1 <= i < |token| ==> IsDigitOrUnderscore(token[i]))
    ensures IsDigits(token) && |token| > 0 ==> r == Some(DecimalValue(token))
  {
    var negative := |token| > 0 && token[0] == '-';
    var body := if |token| > 0 && (token[0] == '-' || token[0] == '+') then token[1..] else token;
    if IsPyDigits(body) then
      var v: int := DecimalValue(DropUnderscores(body));
      Some(if negative then -v else v)
    else None
  }

  /** Python's `int` reads back what Rust's `{}` writes. */
  lemma PyIntDecimal(n: nat)
    ensures PyInt(Decimal(n)) == Some(n)
  {
  }
}

=== FILE: user_manager.dfy ===
/** Credentials of the ASCII server: a map from user name to password hash, where the first
    login under a new name registers that name. */
module UserManager {
  import opened Common

  /** User name to stored password hash (the map that is saved to `users.json`). */
  type Users = map<string, string>

  /** Argon2 seen from outside: `hash` hashes a password with a fresh salt and may fail;
      `parses` says whether a stored string is a well-formed password hash; `verify` checks
      a password against a parsed hash. */
  datatype Crypto = Crypto(
    hash: string -> Option<string>,
    parses: string -> bool,
    verify: (string, string) -> bool)

  datatype Error = UnparsableHash(username: string) | HashingFailed | SaveFailed

  /** The users map after a call (it can change even when the call fails) and its result. */
  datatype Outcome<T> = Outcome(users: Users, result: Result<T, Error>)

  /** `create_user`: hash the password, insert the entry, then write the save file; `saved`
      says whether that write succeeds. The entry is inserted before the write, so it stays
      even when the write fails. */
  function CreateUser(users: Users, username: string, password: string, crypto: Crypto, saved: bool)
    : (o: Outcome<()>)
    ensures crypto.hash(password).None? ==> o == Outcome(users, Err(HashingFailed))
    ensures crypto.hash(password).Some? ==>
      && o.users.Keys == users.Keys + {username}
      && o.users[username] == crypto.hash(password).value
      && (o.result.Ok? <==> saved)
    ensures forall u :: u in users && u != username ==> u in o.users && o.users[u] == users[u]
  {
    match crypto.hash(password)
    case None => Outcome(users, Err(HashingFailed))
    case Some(h) =>
      var updated := users[username := h];
      Outcome(updated, if saved then Ok(()) else Err(SaveFailed))
  }

  /** `check_credentials`: a known user is checked against the stored hash and the map is left
      alone; an unknown user is registered with this password and accepted. */
  function CheckCredentials(users: Users, username: string, password: string, crypto: Crypto, saved: bool)
    : (o: Outcome<bool>)
    ensures username in users ==> o.users == users
    ensures username in users && !crypto.parses(users[username]) ==>
      o.result == Err(UnparsableHash(username))
    ensures username in users && crypto.parses(users[username]) ==>
      o.result == Ok(crypto.verify(password, users[username]))
    ensures username !in users ==>
      && o.users == CreateUser(users, username, password, crypto, saved).users
      && (o.result.Ok? ==> o.result.value)
      && (o.result.Ok? <==> crypto.hash(password).Some? && saved)
  {
    if username in users then
      var stored := users[username];
      if !crypto.parses(stored) then Outcome(users, Err(UnparsableHash(username)))
      else Outcome(users, Ok(crypto.verify(password, stored)))
    else
      var created := CreateUser(users, username, password, crypto, saved);
      match created.result
      case Err(e) => Outcome(created.users, Err(e))
      case Ok(_) => Outcome(created.users, Ok(true))
  }

  /** A first login registers the name; a later login with the same password then succeeds,
      whether or not the save file was written, provided the hash the first login stored
      parses and verifies that password. */
  lemma ReturningUserAccepted(users: Users, username: string, password: string, crypto: Crypto,
                              saved: bool, savedAgain: bool)
    requires username !in users
    requires crypto.hash(password).Some?
    requires crypto.parses(crypto.hash(password).value)
    requires crypto.verify(password, crypto.hash(password).value)
    ensures var first := CheckCredentials(users, username, password, crypto, saved);
      && username in first.users
      && (saved ==> first.result == Ok(true))
      && CheckCredentials(first.users, username, password, crypto, savedAgain) == Outcome(first.users, Ok(true))
  {
  }

  /** Once registered, a name cannot be taken over: a password the stored hash does not verify
      is refused and the stored hash stays. */
  lemma WrongPasswordRefused(users: Users, username: string, password: string, crypto: Crypto, saved: bool)
    requires username in users && crypto.parses(users[username])
    requires !crypto.verify(password, users[username])
    ensures CheckCredentials(users, username, password, crypto, saved) == Outcome(users, Ok(false))
  {
  }
}

=== FILE: user_scheduler.dfy ===
/** The slot scheduler: a queue of logged-in users that takes turns painting; every round the
    front user's slot ends, the user goes to the back, and the new front user's slot starts. */
module UserScheduler {
  import opened Common

  /** The users' names in queue order. Each entry also owns a channel to its connection; this
      model does not hold the channels. Whether a send on one succeeds is a parameter of the
      round instead. */
  type Queue = seq<string>

  datatype SlotEvent = SlotStart | SlotEnd

  /** A slot event sent on the channel of the named user. */
  datatype Delivery = Delivery(username: string, event: SlotEvent)

  /** `register_user`: push to the back. */
  function Register(q: Queue, username: string): (r: Queue)
    ensures |r| == |q| + 1 && r[..|q|] == q && r[|q|] == username
    ensures multiset(r) == multiset(q) + multiset{username}
  {
    q + [username]
  }

  /** `unregister_user`: `retain` every entry with another name, in order. */
  function Unregister(q: Queue, username: string): (r: Queue)
    ensures username !in r
    ensures multiset(r) == multiset(q)[username := 0]
    ensures username !in q ==> r == q
    ensures |r| <= |q|
  {
    if |q| == 0 then []
    else
      var rest := Unregister(q[1..], username);
      assert q == [q[0]] + q[1..];
      if q[0] == username then rest else [q[0]] + rest
  }

  /** Unregistering works entry by entry, so it distributes over a split of the queue. */
  lemma {:induction false} UnregisterAppend(a: Queue, b: Queue, username: string)
    ensures Unregister(a + b, username) == Unregister(a, username) + Unregister(b, username)
  {
    if |a| > 0 {
      assert (a + b)[1..] == a[1..] + b;
      UnregisterAppend(a[1..], b, username);
    } else {
      assert a + b == b;
    }
  }

  /** Unregistering keeps every other user's relative order: it is a no-op on a queue without
      the name, and it is idempotent. */
  lemma UnregisterIdempotent(q: Queue, username: string)
    ensures Unregister(Unregister(q, username), username) == Unregister(q, username)
  {
  }

  /** Registering and then unregistering a new name gives the queue back. */
  lemma RegisterUnregister(q: Queue, username: string)
    requires username !in q
    ensures Unregister(Register(q, username), username) == q
  {
    UnregisterAppend(q, [username], username);
    assert Unregister([username], username) == Unregister([], username);
  }

  /** Step one of a round: the front user, if any, is popped and told its slot ended; it goes
      to the back only when that send succeeds. */
  function EndSlot(q: Queue, endDelivered: bool): (r: (Queue, seq<Delivery>))
    ensures |q| == 0 ==> r == ([], [])
    ensures |q| > 0 ==> r.1 == [Delivery(q[0], SlotEnd)]
    ensures |q| > 0 && endDelivered ==> r.0 == q[1..] + [q[0]] && multiset(r.0) == multiset(q)
    ensures |q| > 0 && !endDelivered ==> r.0 == q[1..] && multiset(r.0) == multiset(q) - multiset{q[0]}
  {
    if |q| == 0 then ([], [])
    else
      assert q == [q[0]] + q[1..];
      (if endDelivered then q[1..] + [q[0]] else q[1..], [Delivery(q[0], SlotEnd)])
  }

  /** One iteration of `run`'s loop: the queue afterwards, the slot events sent, the user
      announced as currently painting, and whether the loop stops because the announcement
      could not be sent on the websocket channel. */
  datatype RoundResult = RoundResult(
    queue: Queue,
    deliveries: seq<Delivery>,
    announced: Option<string>,
    stopped: bool)

  /** One iteration of `run`'s loop, with the outcome of each send as a parameter; the front
      user is removed when its slot start cannot be delivered. */
  function Round(q: Queue, endDelivered: bool, startDelivered: bool, announcementSent: bool)
    : (r: RoundResult)
    ensures |q| == 0 ==> r == RoundResult([], [], None, false)
    ensures r.announced.None? <==> |EndSlot(q, endDelivered).0| == 0
    ensures r.announced.Some? ==>
      && r.announced == Some(EndSlot(q, endDelivered).0[0])
      && r.deliveries == EndSlot(q, endDelivered).1 + [Delivery(r.announced.value, SlotStart)]
      && (r.stopped <==> !announcementSent)
    ensures r.announced.None? ==> r.deliveries == EndSlot(q, endDelivered).1 && !r.stopped
    ensures startDelivered ==> r.queue == EndSlot(q, endDelivered).0
    ensures !startDelivered && r.announced.Some? ==>
      && r.announced.value !in r.queue
      && multiset(r.queue) == multiset(EndSlot(q, endDelivered).0)[r.announced.value := 0]
    ensures |r.queue| <= |q|
  {
    var (q1, ended) := EndSlot(q, endDelivered);
    if |q1| == 0 then RoundResult(q1, ended, None, false)
    else
      var next := q1[0];
      var q2 := if startDelivered then q1 else Unregister(q1, next);
      RoundResult(q2, ended + [Delivery(next, SlotStart)], Some(next), !announcementSent)
  }

  /** A user whose connection went away while waiting is dropped when its turn comes: with
      the queue [a, b], a's slot ends normally but b's slot start cannot be delivered. */
  lemma DeadUserRemoved()
    ensures var r := Round(["a", "b"], true, false, true);
      && r.queue == ["a"]
      && r.announced == Some("b")
      && r.deliveries == [Delivery("a", SlotEnd), Delivery("b", SlotStart)]
  {
    assert EndSlot(["a", "b"], true).0 == ["b", "a"];
    assert Unregister(["a"], "b") == ["a"];
    assert Unregister(["b", "a"], "b") == Unregister(["a"], "b");
  }

  /** A user who is in the queue is removed by unregistering, so the queue gets shorter. */
  lemma {:induction false} UnregisterShrinks(q: Queue, username: string)
    requires username in q
    ensures |Unregister(q, username)| < |q|
  {
    if q[0] != username {
      UnregisterShrinks(q[1..], username);
    }
  }

  /** The queue's `tokio` `RwLock`: free, or held by a writer. It is not re-entrant, so a
      task that already holds the write guard and asks for it again waits forever. */
  datatype LockState = Free | WriteHeld

  /** `write().await`: granted only when the lock is free. */
  function AcquireWrite(lock: LockState): (r: Option<LockState>)
    ensures r.Some? <==> lock == Free
    ensures r.Some? ==> r.value == WriteHeld
  {
    if lock == Free then Some(WriteHeld) else None
  }

  /** A computation that either finishes with a value or waits forever on a lock. */
  datatype Progress<T> = Finished(value: T) | Blocked

  /** `unregister_user` as it is written: take the write lock, then `retain`. */
  function UnregisterLocked(q: Queue, lock: LockState, username: string): (r: Progress<Queue>)
    ensures r.Blocked? <==> lock == WriteHeld
    ensures r.Finished? ==> r.value == Unregister(q, username)
  {
    match AcquireWrite(lock)
    case None => Blocked
    case Some(_) => Finished(Unregister(q, username))
  }

  /** One iteration of `run`'s loop as it is written: the loop takes the write guard, keeps it
      for the whole round, and on a failed slot start calls `unregister_user`, which asks for
      the same lock again. The round then never finishes. */
  function RoundAsWritten(q: Queue, endDelivered: bool, startDelivered: bool, announcementSent: bool)
    : (r: Progress<RoundResult>)
    ensures r.Blocked? <==> |EndSlot(q, endDelivered).0| > 0 && !startDelivered
    ensures r.Finished? ==> r.value == Round(q, endDelivered, startDelivered, announcementSent)
  {
    match AcquireWrite(Free)
    case None => Blocked
    case Some(guard) =>
      var (q1, ended) := EndSlot(q, endDelivered);
      if |q1| == 0 then Finished(RoundResult(q1, ended, None, false))
      else
        var next := q1[0];
        if startDelivered then
          Finished(RoundResult(q1, ended + [Delivery(next, SlotStart)], Some(next), !announcementSent))
        else
          match UnregisterLocked(q1, guard, next)
          case Blocked => Blocked
          case Finished(q2) =>
            Finished(RoundResult(q2, ended + [Delivery(next, SlotStart)], Some(next), !announcementSent))
  }

  /** The loop as written hangs in exactly the rounds where the intended round drops a user:
      those whose slot start cannot be delivered. */
  lemma AsWrittenHangsWhereUserDropped(q: Queue, endDelivered: bool, startDelivered: bool,
                                       announcementSent: bool)
    ensures var r := Round(q, endDelivered, startDelivered, announcementSent);
      RoundAsWritten(q, endDelivered, startDelivered, announcementSent).Blocked? <==>
        |r.queue| < |EndSlot(q, endDelivered).0|
  {
    var q1 := EndSlot(q, endDelivered).0;
    if |q1| > 0 && !startDelivered {
      UnregisterShrinks(q1, q1[0]);
    }
  }

  /** The counterexample: with the queue [a, b], a's slot ends normally but b's slot start
      cannot be delivered; the intended round drops b, the written one never finishes. */
  lemma SchedulerHangsOnDeadUser()
    ensures RoundAsWritten(["a", "b"], true, false, true) == Blocked
    ensures Round(["a", "b"], true, false, true).queue == ["a"]
  {
    DeadUserRemoved();
  }

  /** With every send succeeding, a round rotates the queue by one and announces the user who
      was second. */
  lemma RotationWhenAllDelivered(q: Queue)
    requires |q| > 0
    ensures var r := Round(q, true, true, true);
      && r.queue == q[1..] + [q[0]]
      && r.announced == Some(if |q| > 1 then q[1] else q[0])
      && r.deliveries == [Delivery(q[0], SlotEnd), Delivery(r.announced.value, SlotStart)]
      && !r.stopped
  {
  }

  /** `n` rounds with every send succeeding: the queue afterwards and the users announced, in
      order. */
  function RunRounds(q: Queue, n: nat): (r: (Queue, seq<string>))
    ensures |r.0| == |q|
    ensures |q| > 0 ==> |r.1| == n
    decreases n
  {
    if n == 0 then (q, [])
    else
      var round := Round(q, true, true, true);
      var rest := RunRounds(round.queue, n - 1);
      (rest.0, (if round.announced.Some? then [round.announced.value] else []) + rest.1)
  }

  /** The user that follows position k in the cyclic queue order. */
  function Successor(q: Queue, k: nat): string
    requires k < |q|
  {
    if k + 1 < |q| then q[k + 1] else q[0]
  }

  /** The successor of position k - 1 after rotating by one is the successor of position k
      before. */
  lemma SuccessorRotated(q: Queue, k: nat)
    requires 0 < k < |q|
    ensures Successor(q[1..] + [q[0]], k - 1) == Successor(q, k)
  {
  }

  /** Rotating by one and then by n - 1 is rotating by n. */
  lemma RotateTwice(q: Queue, n: nat)
    requires 0 < n <= |q|
    ensures var rot := q[1..] + [q[0]];
      rot[n - 1..] + rot[..n - 1] == q[n..] + q[..n]
  {
    var rot := q[1..] + [q[0]];
    assert rot[n - 1..] == q[n..] + [q[0]];
    assert rot[..n - 1] == q[1..n];
    assert q[..n] == [q[0]] + q[1..n];
  }

  /** One round with every send succeeding, unfolded: rotate and announce the new front. */
  lemma RunRoundsStep(q: Queue, n: nat)
    requires 0 < |q| && 0 < n
    ensures var rot := q[1..] + [q[0]];
      && RunRounds(q, n).0 == RunRounds(rot, n - 1).0
      && RunRounds(q, n).1 == [rot[0]] + RunRounds(rot, n - 1).1
  {
    RotationWhenAllDelivered(q);
  }

  /** Round robin, for the queue: n <= |q| rounds rotate it by n. */
  lemma {:induction false} RoundRobinQueue(q: Queue, n: nat)
    requires 0 < |q| && n <= |q|
    ensures RunRounds(q, n).0 == q[n..] + q[..n]
    decreases n
  {
    if n > 0 {
      var rot := q[1..] + [q[0]];
      RunRoundsStep(q, n);
      RoundRobinQueue(rot, n - 1);
      RotateTwice(q, n);
    } else {
      assert q[0..] + q[..0] == q;
    }
  }

  /** Round robin, for the announcements: round k of n <= |q| announces the user after
      position k in cyclic order, so within |q| rounds every user in the queue gets a slot. */
  lemma {:induction false} RoundRobin(q: Queue, n: nat)
    requires 0 < |q| && n <= |q|
    ensures forall k :: 0 <= k < n ==> RunRounds(q, n).1[k] == Successor(q, k)
    decreases n
  {
    if n > 0 {
      var rot := q[1..] + [q[0]];
      RunRoundsStep(q, n);
      RoundRobin(rot, n - 1);
      var rest := RunRounds(rot, n - 1).1;
      var all := RunRounds(q, n).1;
      forall k | 0 < k < n
        ensures all[k] == Successor(q, k)
      {
        assert all[k] == rest[k - 1];
        SuccessorRotated(q, k);
      }
    }
  }

  /** A full cycle of rounds brings the queue back to its starting order. */
  lemma FullCycle(q: Queue)
    requires |q| > 0
    ensures RunRounds(q, |q|).0 == q
  {
    RoundRobinQueue(q, |q|);
    assert q[|q|..] + q[..|q|] == q;
  }

  /** Within one full cycle every queued user is announced as currently painting. */
  lemma EveryUserGetsSlot(q: Queue, j: nat)
    requires j < |q|
    ensures q[j] in RunRounds(q, |q|).1
  {
    var anns := RunRounds(q, |q|).1;
    RoundRobin(q, |q|);
    var k := if j == 0 then |q| - 1 else j - 1;
    assert k < |anns|;
    assert Successor(q, k) == q[j];
    assert anns[k] == q[j];
  }
}

=== FILE: web_client.dfy ===
/** The browser side: how the page's websocket handler turns a decoded `ScreenSync` snapshot
    into the pixels of its canvas. */
module WebClient {
  import opened Common
  import FB = FrameBuffer

  /** The canvas element: its size and the RGBA bytes last put on it, row-major. */
  datatype Canvas = Canvas(width: nat, height: nat, data: seq<U8>)

  /** The protobuf decoder threw. */
  datatype DecodeError = MalformedScreenSync

  /** A websocket message: a Blob whose bytes the protobuf decoder turned into a snapshot
      (or rejected), or a message of some other kind. */
  datatype Message = BlobMessage(decoded: Result<FB.ScreenSync, DecodeError>) | OtherMessage

  /** A read past the end of a `Uint8Array` yields `undefined`, which a
      `Uint8ClampedArray` stores as 0. */
  function Load(pixels: seq<U8>, i: nat): (v: U8)
    ensures i < |pixels| ==> v == pixels[i]
    ensures i >= |pixels| ==> v == 0
  {
    if i < |pixels| then pixels[i] else 0
  }

  /** A write past the end of a typed array is ignored. */
  function Store(data: seq<U8>, i: nat, v: U8): (r: seq<U8>)
    ensures |r| == |data|
    ensures forall j :: 0 <= j < |data| ==> r[j] == if j == i then v else data[j]
  {
    if i < |data| then data[i := v] else data
  }

  /** Byte i of the image data once the copy loop has run: each 4-byte group that starts
      inside `pixels` gets its R, G and B bytes copied and its alpha byte set to 255; the
      groups the loop never reaches keep the zeros `createImageData` starts with. */
  function ImageByte(pixels: seq<U8>, i: nat): U8
  {
    var groupStart := i - i % 4;
    if groupStart >= |pixels| then 0
    else if i % 4 == 3 then 255
    else Load(pixels, i)
  }

  /** One iteration of the copy loop: R, G and B of the group starting at `byte` are copied,
      its alpha byte is set to 255, and nothing else changes. */
  function StoreGroup(data: seq<U8>, pixels: seq<U8>, byte: nat): (r: seq<U8>)
    requires byte % 4 == 0 && byte < |pixels|
    ensures |r| == |data|
    ensures forall j :: 0 <= j < |data| ==>
      r[j] == if byte <= j < byte + 4 then ImageByte(pixels, j) else data[j]
  {
    var r := Store(Store(Store(Store(data, byte, Load(pixels, byte)),
      byte + 1, Load(pixels, byte + 1)), byte + 2, Load(pixels, byte + 2)), byte + 3, 255);
    assert forall j :: byte <= j < byte + 4 ==> j - j % 4 == byte && j % 4 == j - byte;
    r
  }

  /** The loop `for (byte = 0; byte < pixels.length; byte += 4)` over a fresh
      `createImageData(width, height)`; `groups` counts the iterations. */
  method CopyPixels(pixels: seq<U8>, width: nat, height: nat) returns (data: seq<U8>, groups: nat)
    ensures |data| == width * height * 4
    ensures forall i :: 0 <= i < |data| ==> data[i] == ImageByte(pixels, i)
    ensures groups == (|pixels| + 3) / 4
  {
    var size := width * height * 4;
    data := seq(size, _ => 0);
    var byte := 0;
    groups := 0;
    while byte < |pixels|
      invariant byte == 4 * groups
      invariant byte <= |pixels| + 3
      invariant |data| == size
      invariant forall i :: 0 <= i < size ==> data[i] == if i < byte then ImageByte(pixels, i) else 0
    {
      data := StoreGroup(data, pixels, byte);
      byte := byte + 4;
      groups := groups + 1;
    }
    assert forall i :: byte <= i ==> i - i % 4 >= byte;
  }

  /** `socket.onmessage` followed by the reader's `onloadend`: the canvas after handling one
      message. */
  method OnMessage(canvas: Canvas, msg: Message) returns (r: Canvas)
    ensures msg.OtherMessage? ==> r == canvas
    ensures msg.BlobMessage? && msg.decoded.Err? ==> r == canvas
    ensures msg.BlobMessage? && msg.decoded.Ok? ==>
      var s := msg.decoded.value;
      if s.width == 0 || s.height == 0 then r == canvas
      else
        && r.width == s.width && r.height == s.height
        && |r.data| == s.width * s.height * 4
        && forall i :: 0 <= i < |r.data| ==> r.data[i] == ImageByte(s.pixels, i)
  {
    match msg
    case OtherMessage =>
      r := canvas;
    case BlobMessage(decoded) =>
      match decoded
      case Err(_) =>
        r := canvas;
      case Ok(s) =>
        if s.width == 0 || s.height == 0 {
          r := canvas;
        } else {
          var data, _ := CopyPixels(s.pixels, s.width, s.height);
          r := Canvas(s.width, s.height, data);
        }
  }

  /** With exactly width×height×4 snapshot bytes, every R, G, B byte is copied unchanged, every
      alpha byte becomes 255 whatever it was, and the loop runs once per pixel. */
  lemma ExactSnapshotRendering(pixels: seq<U8>, width: nat, height: nat)
    requires |pixels| == width * height * 4
    ensures (|pixels| + 3) / 4 == width * height
    ensures forall i :: 0 <= i < |pixels| && i % 4 != 3 ==> ImageByte(pixels, i) == pixels[i]
    ensures forall i :: 0 <= i < |pixels| && i % 4 == 3 ==> ImageByte(pixels, i) == 255
  {
  }

  /** A snapshot of a rainbow-filled framebuffer has alpha 0 in every pixel, yet the page
      shows every pixel fully opaque with the shade's R, G and B. */
  lemma RainbowRendersOpaque(fb: FB.FrameBuffer, shade: nat -> FB.Rgb, i: nat)
    requires fb.width * fb.height < U32_MODULUS
    requires i < fb.width * fb.height
    ensures var s := FB.ToScreenSync(FB.FillWithRainbow(fb, shade));
      && s.pixels[4 * i + 3] == 0
      && ImageByte(s.pixels, 4 * i) == shade(i).r
      && ImageByte(s.pixels, 4 * i + 1) == shade(i).g
      && ImageByte(s.pixels, 4 * i + 2) == shade(i).b
      && ImageByte(s.pixels, 4 * i + 3) == 255
  {
    var r := FB.FillWithRainbow(fb, shade);
    var n: nat := fb.width * fb.height;
    assert |r.pixels| == n;
    var s := FB.ToScreenSync(r);
    FB.RainbowSnapshotChannels(fb, shade, i);
    assert 4 * i + 3 < |s.pixels|;
    GroupOf(i, 0);
    GroupOf(i, 1);
    GroupOf(i, 2);
    GroupOf(i, 3);
  }

  /** Byte k of pixel i belongs to the group starting at 4i. */
  lemma GroupOf(i: nat, k: nat)
    requires k < 4
    ensures (4 * i + k) % 4 == k && (4 * i + k) - (4 * i + k) % 4 == 4 * i
  {
  }
}
